=== FILE: README.md ===
# Instagram auto-poster: a Dafny model of the scheduled-post lifecycle

This project models the core of a social-media post scheduler. It has two parts.

**The server side** (`lib/instagram.ts`, `app/api/instagram/schedule/route.ts`):
- a post is stored with status `PENDING`;
- a sweep selects the posts that are `PENDING` and whose `scheduleFor` time has come;
- the sweep insists on valid platform credentials;
- it publishes each selected post in turn and records `POSTED`, or `FAILED` with an error message.

The intake endpoint validates a JSON body and creates the `PENDING` record. It answers 200, 400 or 500.

**The browser side** keeps its own list of posts in local storage under the key `scheduledPosts`:
- two forms append a new `pending` post (`components/post-form.tsx`, `app/components/post-form.tsx`);
- two list views delete posts by id (`components/scheduled-posts.tsx`, `app/components/scheduled-posts.tsx`);
- one of the views also updates a post by id.

Everything is modelled as pure functions over immutable datatypes:
- time is an integer;
- the post table is a sequence of rows plus the next identifier to hand out;
- local storage is `Missing`, `Corrupt` (the JSON parse throws, or the parsed value is not a list) or `Saved(list)`.

Anything the code hands to a library or the platform is a function parameter:
- the platform's publish call (`Publisher`);
- whether a database update throws (`Writer`);
- whether the sweep's two database reads throw (`ReadFaults`);
- URL and datetime validity;
- date parsing and `toISOString`;
- `Date.now()`.

Files and modules:
- `wrappers.dfy` (`Wrappers`): `Option` and `Result`.
- `text.dfy` (`Text`): JavaScript `split` with a one-character separator, and `parseInt` in base 10.
- `instagram.dfy` (`Instagram`): credentials, the store, `Create`, the due selection and the sweep.
- `sweep_properties.dfy` (`SweepProperties`): what a sweep does to every row.
- `schedule_route.dfy` (`ScheduleRoute`): the intake endpoint.
- `local_posts.dfy` (`LocalPosts`): the browser post record, the storage entry, delete and update by id, and the status badge.
- `scheduled_posts.dfy` (`ScheduledPosts`) and `app_scheduled_posts.dfy` (`AppScheduledPosts`): the two list views.
- `post_form.dfy` (`PostForm`) and `app_post_form.dfy` (`AppPostForm`): the two forms.

### Behaviour of the code worth knowing
- **Credentials are checked even when nothing is due.** The code fetches credentials unconditionally and throws if they are missing or expired (`lib/instagram.ts:72-75`). `Instagram.ProcessScheduledPosts` returns `CredentialsUnavailable` in that case, even when no post is due.
- **A failed `POSTED` write is recorded as a failure.** The write sits inside the `try`, so its failure lands in the `catch` and the post is marked `FAILED`, even though the publish happened (`lib/instagram.ts:78-91`).
- **A failed `FAILED` write stops the sweep.** A write that throws inside the `catch` is not caught. The sweep stops there, and later due posts stay `PENDING` (`SweepOutcome.Aborted`). Per-post isolation therefore holds only for sweeps that complete.
- **The recorded error can be empty.** The code stores the thrown `Error`'s message, which may be the empty string, or `"Unknown error"` for anything else that was thrown.
- **A failed read rejects the whole sweep.** The `findMany` selection (`lib/instagram.ts:63`) and the credential read (`lib/instagram.ts:10`) sit outside any `try`. If either throws, no post is attempted and the table is unchanged (`SweepOutcome.ReadFailed`).
- **Malformed JSON gets a 500, not a 400.** A body that is not JSON makes `request.json()` throw an error that is not a validation error, so the route answers 500 with the fixed message.

## Model

| member | source | states |
|---|---|---|
| Instagram.GetCredentials | lib/instagram.ts:9-22 | credentials are returned iff a stored record exists and `now < expiresAt`; the token and user id are the stored ones |
| Instagram.ErrorText | lib/instagram.ts:89 | the recorded error is the thrown `Error`'s message, or `"Unknown error"` for any other thrown value |
| Instagram.Create | lib/instagram.ts:51-58 | a storage failure is passed on; otherwise exactly one row is appended, `PENDING`, no error, the given media URL, caption and time, under an id no existing row has; the table invariant is preserved |
| Instagram.SchedulePost | lib/instagram.ts:46-59 | the old rows are kept as a prefix and one `PENDING` row with the given fields follows; storage failures propagate; the table invariant is preserved |
| Instagram.DuePending | lib/instagram.ts:63-70 | the `findMany` selection is never longer than the table; its contents are stated by the next two rows |
| Instagram.DueSelection | lib/instagram.ts:62-70 | the selection holds each row that is `PENDING` with `scheduleFor <= now` exactly as often as the table does, and no other row |
| Instagram.DueMembership | lib/instagram.ts:62-70 | a row is selected iff it is in the table, `PENDING`, and scheduled no later than `now` |
| Instagram.Apply | lib/instagram.ts:80-91 | an update leaves id, media URL, caption and schedule alone; `POSTED` keeps the error column; `FAILED` sets it to the message |
| Instagram.UpdateById | lib/instagram.ts:80-83 | an update by id changes every row with that id and no other, position by position |
| Instagram.Attempt | lib/instagram.ts:78-91 | the per-post try/catch throws only with the fault of a throwing `FAILED` write, and reports `POSTED` only when the publish and the `POSTED` write both succeed |
| Instagram.AttemptSpec | lib/instagram.ts:78-91 | a post ends `POSTED` iff the publish and the `POSTED` write both succeed; otherwise `FAILED` with the message of what was thrown first; the attempt throws iff the `FAILED` write throws |
| Instagram.ProcessDue | lib/instagram.ts:77-93 | the loop never changes the table's length or id counter and never reports missing credentials |
| Instagram.ProcessScheduledPosts | lib/instagram.ts:61-94 | a throwing selection read, then a throwing credential read, rejects the sweep with that fault and the table unchanged; with both reads succeeding but no valid credentials the sweep fails and the table is unchanged, even when nothing is due |
| Instagram.Thrown | lib/instagram.ts:61-94 | the sweep rejects iff it does not complete; missing credentials reject with the fixed message "Instagram credentials not found or expired"; otherwise with the fault that escaped |
| SweepProperties.FirstFailure | lib/instagram.ts:77-93 | the index of the first due post whose catch block throws, or the number of due posts when none does |
| SweepProperties.BeforeFirstFailure | lib/instagram.ts:77-93 | every attempt before that index succeeded, so the loop reaches it |
| SweepProperties.ProcessDueRow | lib/instagram.ts:77-93 | the loop attempts due posts in order and stops at the first throwing `FAILED` write; a row is changed iff its id is among the posts attempted before that point, and then as that attempt decided |
| SweepProperties.OutcomeFollowsFirstFailure | lib/instagram.ts:77-93 | the loop completes iff no due post's catch block throws, and otherwise reports that post's fault |
| SweepProperties.DueUniqueIds | lib/instagram.ts:63-70 | with distinct ids in the table, the selected posts have distinct ids too; together with `Instagram.DueMembership`, every due post is selected exactly once |
| SweepProperties.SweepRowsAreExpected | lib/instagram.ts:61-93 | every row is either untouched or changed exactly as its own attempt decides; in a completed sweep every row is as its own attempt decides |
| SweepProperties.SweepCompletesIff | lib/instagram.ts:61-93 | the sweep completes iff both reads succeed, credentials are valid and no due post's `FAILED` write throws |
| SweepProperties.SweepFrame | lib/instagram.ts:62-91 | rows that are not due (`POSTED`, `FAILED`, or scheduled later) are never touched; no row loses its id, media URL, caption or schedule |
| SweepProperties.SweepIdempotent | lib/instagram.ts:62-93 | after a completed sweep nothing is due; a second sweep at the same time changes nothing whatever the oracles do, and completes unless one of its reads throws |
| SweepProperties.SweepIsolation | lib/instagram.ts:77-93 | in completed sweeps a post's outcome depends only on the publisher's and the store's answers for that post |
| SweepProperties.SweepWithReliableStore | lib/instagram.ts:77-92 | with both reads succeeding, valid credentials and writes that never throw, every due post ends `POSTED` iff its publish succeeded, else `FAILED` with the publish error's text |
| SweepProperties.SweepAbortLeavesCulpritPending | lib/instagram.ts:84-91 | a sweep that stops early was stopped by a due post whose `FAILED` write threw; that post is still `PENDING` |
| SweepProperties.SweepPreservesValid | lib/instagram.ts:80-91 | distinct ids, ids below the counter, and "error iff `FAILED`" all survive a sweep |
| ScheduleRoute.KeyIssues | app/api/instagram/schedule/route.ts:5-9 | a key has no issue iff it holds a string passing its format check; all issues name that key |
| ScheduleRoute.Validate | app/api/instagram/schedule/route.ts:5-9 | a body passes iff it is an object whose three keys hold strings, with a valid URL and a valid datetime; the request carries exactly those strings; a failure has at least one issue |
| ScheduleRoute.HandlePost | app/api/instagram/schedule/route.ts:11-40 | 200 with `success: true` iff the body parses, validates and the store accepts it; then one `PENDING` row with the submitted fields and the parsed date is appended and returned; a failed validation gives 400 with the issues; anything else gives 500 with the fixed message; only 200 writes anything |
| ScheduleRoute.EmptyCaptionAccepted | app/api/instagram/schedule/route.ts:5-9 | an empty caption with a valid URL and datetime is accepted and stored |
| ScheduleRoute.CaptionTextIrrelevant | app/api/instagram/schedule/route.ts:7 | acceptance never depends on the caption's text |
| LocalPosts.ReadPosts | components/scheduled-posts.tsx:54-56 | a missing entry reads as the empty list, a saved list as itself, and only a corrupt entry fails |
| LocalPosts.StatusLabel | components/scheduled-posts.tsx:170-174 | the badge is total over all strings: `待機中` iff `pending`, `投稿済み` iff `posted`, `エラー` otherwise |
| LocalPosts.RemoveId | components/scheduled-posts.tsx:107-109 | the `filter` never lengthens the list; what it keeps is stated by the next row |
| LocalPosts.RemoveIdSpec | components/scheduled-posts.tsx:107-109 | every post with the id is dropped and every other post keeps its multiplicity |
| LocalPosts.RemoveIdConcat | components/scheduled-posts.tsx:107-109 | delete works piece by piece, so the kept posts keep their order |
| LocalPosts.RemoveAbsentId | components/scheduled-posts.tsx:107-109 | deleting an id nobody carries leaves the list unchanged |
| LocalPosts.RemoveIdIdempotent | app/components/scheduled-posts.tsx:43 | deleting twice equals deleting once |
| LocalPosts.RemoveAppended | app/components/post-form.tsx:67 | a post appended under a fresh id is removed again by deleting that id |
| LocalPosts.ReplaceById | components/scheduled-posts.tsx:127-129 | update keeps length and positions and replaces exactly the entries whose id matches |
| LocalPosts.ReplaceAbsentId | components/scheduled-posts.tsx:127-129 | updating with an id nobody carries leaves the list unchanged |
| LocalPosts.ReplaceIdempotent | components/scheduled-posts.tsx:127-129 | updating twice with the same post equals updating once, and every position keeps its id |
| LocalPosts.RemoveAfterReplace | components/scheduled-posts.tsx:107-109 | deleting an id after updating it removes the same posts as deleting it directly |
| ScheduledPosts.LoadPosts | components/scheduled-posts.tsx:52-61 | a missing entry shows as empty, a saved list as itself; a corrupt one keeps the display |
| ScheduledPosts.HandleDelete | components/scheduled-posts.tsx:100-118 | the list re-read from storage minus the id is both stored and shown, with other posts' multiplicities kept; a failed parse changes nothing |
| ScheduledPosts.DeleteKeepsOrder | components/scheduled-posts.tsx:107-109 | deleting a post's id leaves the posts before and after it in order |
| ScheduledPosts.DeleteAbsentId | components/scheduled-posts.tsx:107-113 | deleting an id that is absent shows and stores the stored list unchanged |
| ScheduledPosts.HandleUpdate | components/scheduled-posts.tsx:120-139 | the re-read list with the matching entries replaced is both stored and shown, and editing is closed; a failed parse changes nothing |
| ScheduledPosts.Offered | components/scheduled-posts.tsx:176 | edit and delete appear iff the status is `pending` |
| ScheduledPosts.StartEdit | components/scheduled-posts.tsx:183 | opening the dialog edits a copy of the row and touches nothing else |
| ScheduledPosts.ApplyEdit | components/scheduled-posts.tsx:213-241 | one `onChange` keeps a copy iff there is one, and keeps its id, image and status |
| ScheduledPosts.ApplyEdits | components/scheduled-posts.tsx:211-242 | the dialog changes only caption and schedule; id, image and status of the copy stay |
| ScheduledPosts.ConfirmEdit | components/scheduled-posts.tsx:267-271 | confirming with nothing being edited does nothing; otherwise, unless the stored entry is corrupt, storage and display agree and editing closes; a corrupt entry changes nothing and leaves the dialog open |
| ScheduledPosts.EditSessionChangesOnlyText | components/scheduled-posts.tsx:183-271 | an edit session ending in an update keeps every row's id, leaves rows with other ids untouched, and keeps the edited row's image and status |
| AppScheduledPosts.LoadPosts | app/components/scheduled-posts.tsx:29-34 | a missing entry shows as empty, a saved list as itself; a corrupt entry throws |
| AppScheduledPosts.HandleDelete | app/components/scheduled-posts.tsx:42-46 | the list on screen minus the id is both stored and shown, with other posts' multiplicities kept |
| AppScheduledPosts.Offered | app/components/scheduled-posts.tsx:85-91 | every row offers delete, whatever its status, and none offers edit |
| AppScheduledPosts.DeleteIdempotent | app/components/scheduled-posts.tsx:43 | deleting the same id twice equals deleting it once |
| AppScheduledPosts.DeleteIgnoresStorage | app/components/scheduled-posts.tsx:43-44 | what storage held before the delete plays no part in the result |
| AppScheduledPosts.DeleteAgreesWithEditableView | app/components/scheduled-posts.tsx:43-45 | when screen and storage agree, both views' deletes store and show the same list |
| Text.Split | components/post-form.tsx:67-70 | there is at least one piece and no piece contains the separator |
| Text.JoinSplit | components/post-form.tsx:67-70 | joining the pieces with the separator gives back the input, so splitting loses nothing |
| Text.SplitJoin | components/post-form.tsx:67-70 | splitting joined separator-free pieces gives the pieces back |
| Text.Before | components/post-form.tsx:68 | the text before the first separator: a separator-free prefix that ends at a separator or at the end |
| Text.ParseInt | components/post-form.tsx:71-77 | NaN iff no digit follows the optional sign; the sign decides the sign of the result |
| Text.ParseIntNumeral | components/post-form.tsx:71-77 | `parseInt` of a run of digits followed by non-digit text is the number the digits denote, when that number is at most 2^53 - 1 |
| Text.ParseIntMinus | components/post-form.tsx:71-77 | a minus sign in front of a digit negates what `parseInt` reads |
| Text.ParseIntDecimal | components/post-form.tsx:71-77 | `parseInt` reads back a number of at most 2^53 - 1 written in decimal, whatever non-digit text follows |
| PostForm.NumberAt | components/post-form.tsx:67-77 | a missing destructured piece is NaN; a present one is `parseInt` of it |
| PostForm.DateArguments | components/post-form.tsx:67-77 | the constructor arguments exist iff all five destructured pieces parse; they are year, month minus one and day from the text before `T` split on `-`, and hours and minutes from the time split on `:` |
| PostForm.DatePiecesOfWrittenDate | components/post-form.tsx:67-69 | a day written `Y-M-D`, followed by `T` and anything, splits into exactly `Y`, `M`, `D` when the parts hold no `-` or `T` |
| PostForm.TimePiecesOfWrittenTime | components/post-form.tsx:70 | a time written `h:mi` splits into exactly `h` and `mi` when the parts hold no `:` |
| PostForm.ArgumentsOfNumbers | components/post-form.tsx:71-77 | five pieces that parse are handed to the constructor in order, the month lowered by one |
| PostForm.DateArgumentsOfPieces | components/post-form.tsx:67-77 | whatever the strings, if the date splits into three parsing pieces and the time into two, the constructor gets those numbers, the month lowered by one |
| PostForm.DateArgumentsOfWrittenDate | components/post-form.tsx:67-77 | a date written `Y-M-DT…` with a time `h:mi`, whose parts parse, gives exactly `Y`, `M - 1`, `D`, `h`, `mi` |
| PostForm.NumeralPiece | components/post-form.tsx:67-77 | a run of digits denoting at most 2^53 - 1 parses to its value and holds no `-`, `T` or `:`, so numerals meet the previous row's conditions |
| PostForm.HandleSubmit | components/post-form.tsx:53-105 | a missing date, time or image stores nothing; a save succeeds iff storage parses and the date is valid; then the old list plus one `pending` post with the form's caption and image is stored and the form is cleared; otherwise storage and form are unchanged |
| PostForm.SubmitAppendsOne | components/post-form.tsx:87-88 | a successful submit appends exactly one `pending` post and keeps every earlier post in place |
| PostForm.SelectDate | components/post-form.tsx:194-199 | the picker stores the picked date's full ISO string, or the empty string when cleared |
| AppPostForm.HandleSubmit | app/components/post-form.tsx:47-83 | a missing date or image stores nothing; a save succeeds iff storage parses and the date is valid; then one `pending` post with the form's caption and image is pushed and the form is cleared |
| AppPostForm.SelectDate | app/components/post-form.tsx:167-171 | the picker stores the part of the ISO string before `T`, or the empty string when cleared |
| AppPostForm.SelectKeepsCalendarDay | app/components/post-form.tsx:170 | picking `day` + `T` + time stores exactly `day` |
| AppPostForm.SubmitThenDelete | app/components/post-form.tsx:57-68 | a submitted post with a fresh id can be deleted again, giving back the list before the submit |

## Left out
- The platform SDK calls in `createInstagramPost` (lib/instagram.ts:29-43) are foreign code. They are the `Publisher` parameter, which returns a media id or what was thrown.
- Prisma is foreign code. The table is a sequence of rows plus an id counter standing in for the database's generated ids.
- `findMany` returns rows in table order here; the source leaves the order unspecified. The chosen order matters: it decides which due posts an aborted sweep has already changed and which fault it reports.
- Prisma's "record not found" error on `update` is not modelled. The sweep only updates ids it has just read, and nothing in a sweep deletes rows.
- Whether a database write throws is a function of the post id and the new status. A real store may fail differently on each call.
- Instagram.ProcessScheduledPosts: the `Publisher` is a pure function of the credentials, media URL and caption, so two due posts with the same image and caption always get the same answer in one sweep; a real platform may answer each call differently.
- The source reads the clock twice: once for the selection and once inside the credential check. The model uses one `now` for both.
- Overlapping sweeps are not modelled. The code has no concurrency control, so only one sequential sweep is modelled.
- `console.error` logging, `alert`s, the one-second polling timer, `storage` event listeners, `FileReader`, object URLs, the image preview and the `isSubmitting` flag are I/O and UI.
- `Date` construction, `toISOString`, time zones and date-fns formatting are parameters or absent. This covers the invalid-date fallback of `formatDate`/`formatDateForInput` (components/scheduled-posts.tsx:63-87).
- The UTC date part fed into a local-time `Date` constructor (components/post-form.tsx:67-77 after the picker's `toISOString`, line 197) is not modelled. Only the string splitting is.
- Zod's URL and ISO-datetime checks are predicates supplied by the caller. An issue keeps only its key and kind, not zod's message text or expected/received fields.
- JSON serialisation is abstracted into the `Stored` datatype. A stored value that parses but is not a list counts as `Corrupt`. That matches delete, update and the submit of app/components/post-form.tsx, where `.filter`, `.map` or `.push` throws into the catch, and the submit of components/post-form.tsx for any parsed value other than a string, where the spread at line 87 throws. It does not match the two `loadPosts` (components/scheduled-posts.tsx:54-57, app/components/scheduled-posts.tsx:30-33): there such a value is stored in the state and rendering later fails at `posts.map`, whereas the model keeps the previous display in `ScheduledPosts.LoadPosts` and reports a throw in `AppScheduledPosts.LoadPosts`.
- `localStorage.setItem` failures (quota) are not modelled.
- Text.ParseInt: leading whitespace and the `0x` prefix that JavaScript's `parseInt` also accepts are not modelled; the forms only feed it digits split out of ISO dates and `HH:mm` times.
- Text.ParseInt: the result is the exact integer, not a JavaScript double. Above 2^53 - 1 (`MaxSafeInteger`) JavaScript rounds (`parseInt("9007199254740993")` is 9007199254740992), and a long enough digit run gives `Infinity`; ECMAScript even lets an engine approximate digits after the twentieth. The lemmas that read values back (`ParseIntNumeral`, `ParseIntDecimal`, `NumeralPiece`) are therefore stated only up to `MaxSafeInteger`, which covers every date and time part the forms parse.
- PostForm.HandleSubmit: a stored JSON string is read as `Corrupt`, so the model reports `SaveFailed` and stores nothing. The source's spread at components/post-form.tsx:87 instead turns the string into its characters, stores them followed by the new post, clears the form and reports success; a list of characters is not a list of posts, so `Stored` cannot hold the result.
- `app/api/posts/route.ts`, the pages, the header, the auth button and the server-rendered post list are outside the modelled core.
- `components/instagram/schedule-post-form.tsx` is client-side form wiring. Its `caption.min(1)` rule is stricter than the server's schema and is not merged into the route.

=== FILE: app_post_form.dfy ===
/** The date-only form (app/components/post-form.tsx): the required-field guard, the new PENDING
    post pushed onto the list in local storage, the form reset, and the day picker keeping only
    the calendar day of the picked date. */
module AppPostForm {
  import opened Wrappers
  import opened Text
  import opened LocalPosts

  /** The form's fields: the image as an object URL, the caption, and the picked day. */
  datatype FormData = FormData(image: string, caption: string, scheduledDate: string)

  const EmptyForm: FormData := FormData("", "", "")

  /** Storage and form after a submit; `saved` is false when nothing was stored. */
  datatype Submission = Submission(stored: Stored, form: FormData, saved: bool)

  /** The required-field check: a day and an image; the caption may be empty. */
  predicate Complete(form: FormData)
  {
    form.scheduledDate != "" && form.image != ""
  }

  /** `handleSubmit`. `now` is `Date.now()`, used as the new id; `isoOf` is
      `new Date(scheduledDate).toISOString()`, `None` where it throws on an invalid date. */
  function HandleSubmit(form: FormData, stored: Stored, now: int, isoOf: string -> Option<string>): (r: Submission)
    ensures !Complete(form) ==> r == Submission(stored, form, false)
    ensures r.saved <==> Complete(form) && !stored.Corrupt? && isoOf(form.scheduledDate).Some?
    ensures !r.saved ==> r.stored == stored && r.form == form
    ensures r.saved ==>
      && r.form == EmptyForm
      && r.stored == Saved(ReadPosts(stored).value +
           [ScheduledPost(now, form.caption, form.image, isoOf(form.scheduledDate).value, PendingStatus)])
  {
    if !Complete(form) then Submission(stored, form, false)
    else
      match ReadPosts(stored)
      case None => Submission(stored, form, false)
      case Some(scheduledPosts) =>
        match isoOf(form.scheduledDate)
        case None => Submission(stored, form, false)
        case Some(at) =>
          var post := ScheduledPost(now, form.caption, form.image, at, PendingStatus);
          Submission(Saved(scheduledPosts + [post]), EmptyForm, true)
  }

  /** The day picker's `onSelect`: the part of the picked date's ISO string before `T`, or the
      empty string when the selection is cleared. */
  function SelectDate(form: FormData, picked: Option<string>): (r: FormData)
    ensures r.image == form.image && r.caption == form.caption
    ensures picked.None? ==> r.scheduledDate == ""
    ensures picked.Some? ==>
      var iso := picked.value;
      && |r.scheduledDate| <= |iso| && r.scheduledDate == iso[..|r.scheduledDate|]
      && 'T' !in r.scheduledDate
      && (|r.scheduledDate| < |iso| ==> iso[|r.scheduledDate|] == 'T')
  {
    form.(scheduledDate := if picked.Some? then Before(picked.value, 'T') else "")
  }

  /** Picking a date whose ISO string is `day` + `T` + time stores exactly `day`. */
  lemma SelectKeepsCalendarDay(form: FormData, day: string, time: string)
    requires 'T' !in day
    ensures SelectDate(form, Some(day + "T" + time)).scheduledDate == day
  {
    BeforeSeparator(day, 'T', time);
  }

  /** A post submitted under an id no stored post carries can be removed again by deleting that id,
      which gives back the list as it was before the submit. */
  lemma SubmitThenDelete(form: FormData, stored: Stored, now: int, isoOf: string -> Option<string>)
    requires HandleSubmit(form, stored, now, isoOf).saved
    requires forall i :: 0 <= i < |ReadPosts(stored).value| ==> ReadPosts(stored).value[i].id != now
    ensures RemoveId(HandleSubmit(form, stored, now, isoOf).stored.posts, now) == ReadPosts(stored).value
  {
    var post := ScheduledPost(now, form.caption, form.image, isoOf(form.scheduledDate).value, PendingStatus);
    RemoveAppended(ReadPosts(stored).value, post);
  }
}

=== FILE: app_scheduled_posts.dfy ===
/** The read-only post list (app/components/scheduled-posts.tsx): loading from local storage and
    deleting from the list on screen, whatever storage holds at that moment. */
module AppScheduledPosts {
  import opened Wrappers
  import opened LocalPosts
  import ScheduledPosts

  /** The component's state together with the storage entry it writes. */
  datatype View = View(stored: Stored, posts: seq<ScheduledPost>)

  /** The effect's `loadPosts`: a missing entry shows as the empty list; a failed parse is not
      caught, so the load throws (`None`). */
  function LoadPosts(v: View): (r: Option<View>)
    ensures r.None? <==> v.stored.Corrupt?
    ensures r.Some? ==> r.value.stored == v.stored
    ensures v.stored.Missing? ==> r == Some(View(Missing, []))
    ensures v.stored.Saved? ==> r == Some(View(v.stored, v.stored.posts))
  {
    match ReadPosts(v.stored)
    case None => None
    case Some(current) => Some(v.(posts := current))
  }

  /** `handleDelete(id)`: filter the list on screen (storage is not re-read), then write the
      result to storage and show it. */
  function HandleDelete(v: View, id: int): (r: View)
    ensures r.stored == Saved(r.posts)
    ensures forall p :: p in r.posts <==> p in v.posts && p.id != id
    ensures forall p :: multiset(r.posts)[p] == if p.id == id then 0 else multiset(v.posts)[p]
  {
    RemoveIdSpec(v.posts, id);
    var remaining := RemoveId(v.posts, id);
    View(Saved(remaining), remaining)
  }

  /** Every row offers the cancel (delete) button, whatever its status; there is no editing. */
  function Offered(p: ScheduledPost): (a: Actions)
    ensures a.delete && !a.edit
  {
    Actions(false, true)
  }

  /** Deleting the same id twice is deleting it once. */
  lemma DeleteIdempotent(v: View, id: int)
    ensures HandleDelete(HandleDelete(v, id), id) == HandleDelete(v, id)
  {
    RemoveIdIdempotent(v.posts, id);
  }

  /** What storage held before the delete plays no part: the written list comes from the screen. */
  lemma DeleteIgnoresStorage(posts: seq<ScheduledPost>, s1: Stored, s2: Stored, id: int)
    ensures HandleDelete(View(s1, posts), id) == HandleDelete(View(s2, posts), id)
  {
  }

  /** When the screen shows what storage holds, this view's delete and the editable view's delete
      (which re-reads storage) write and show the same list. */
  lemma DeleteAgreesWithEditableView(posts: seq<ScheduledPost>, editing: Option<ScheduledPost>, id: int)
    ensures var mine := HandleDelete(View(Saved(posts), posts), id);
      var theirs := ScheduledPosts.HandleDelete(ScheduledPosts.View(Saved(posts), posts, editing), id);
      mine.stored == theirs.stored && mine.posts == theirs.posts
  {
  }
}

=== FILE: instagram.dfy ===
/** The server side of the scheduler (lib/instagram.ts): the credential check, the post store,
    the creation of a PENDING post and the publish sweep over due posts.
    Time is an integer clock; the platform's publish call and the store's writes are oracles. */
module Instagram {
  import opened Wrappers

  /** A point in time, as an integer count of milliseconds. */
  type Time = int

  datatype Status = Pending | Posted | Failed

  /** One row of the post table. `error` is set only when the post has FAILED. */
  datatype InstagramPost = InstagramPost(
    id: nat,
    mediaUrl: string,
    caption: string,
    scheduleFor: Time,
    status: Status,
    error: Option<string>)

  /** The single stored authorisation record. */
  datatype InstagramAuth = InstagramAuth(accessToken: string, userId: string, expiresAt: Time)

  datatype Credentials = Credentials(accessToken: string, userId: string)

  /** A thrown value: `message` is the message of an `Error` instance, `None` for anything else thrown. */
  datatype Fault = Fault(message: Option<string>)

  const UnknownError: string := "Unknown error"
  const CredentialsUnavailableMessage: string := "Instagram credentials not found or expired"

  /** What was thrown, as the sweep records it in a post's `error` column. */
  function ErrorText(f: Fault): (m: string)
    ensures f.message.Some? ==> m == f.message.value
    ensures f.message.None? ==> m == UnknownError
  {
    match f.message
    case Some(text) => text
    case None => UnknownError
  }

  // ---------------------------------------------------------------- credentials

  /** The stored credentials, unless there is no record or it has expired at `now`. */
  function GetCredentials(auth: Option<InstagramAuth>, now: Time): (r: Option<Credentials>)
    ensures r.Some? <==> auth.Some? && now < auth.value.expiresAt
    ensures r.Some? ==> r.value.accessToken == auth.value.accessToken && r.value.userId == auth.value.userId
  {
    if auth.None? || now >= auth.value.expiresAt then None
    else Some(Credentials(auth.value.accessToken, auth.value.userId))
  }

  // ---------------------------------------------------------------- the store

  /** The post table, with the next identifier the database will hand out. */
  datatype Store = Store(posts: seq<InstagramPost>, nextId: nat)

  predicate UniqueIds(posts: seq<InstagramPost>)
  {
    forall i, j :: 0 <= i < |posts| && 0 <= j < |posts| && i != j ==> posts[i].id != posts[j].id
  }

  /** A post carries an error message exactly when it has FAILED. */
  predicate ErrorIffFailed(p: InstagramPost)
  {
    p.error.Some? <==> p.status == Failed
  }

  /** The table invariant: identifiers are distinct and already handed out, and errors go with FAILED. */
  predicate Valid(s: Store)
  {
    && UniqueIds(s.posts)
    && (forall i :: 0 <= i < |s.posts| ==> s.posts[i].id < s.nextId)
    && (forall i :: 0 <= i < |s.posts| ==> ErrorIffFailed(s.posts[i]))
  }

  /** `prisma.instagramPost.create` with status PENDING; `fault` is the storage failure, if any. */
  function Create(s: Store, mediaUrl: string, caption: string, scheduleFor: Time, fault: Option<Fault>)
    : (r: Result<(Store, InstagramPost), Fault>)
    ensures fault.Some? ==> r == Failure(fault.value)
    ensures fault.None? ==> r.Success?
    ensures r.Success? ==> r.value.0.posts == s.posts + [r.value.1]
    ensures r.Success? ==> r.value.0.nextId > s.nextId
    ensures r.Success? ==> var p := r.value.1;
      p.status == Pending && p.error.None? &&
      p.mediaUrl == mediaUrl && p.caption == caption && p.scheduleFor == scheduleFor
    ensures r.Success? && Valid(s) ==> Valid(r.value.0)
    ensures r.Success? && Valid(s) ==> forall q :: q in s.posts ==> q.id != r.value.1.id
  {
    if fault.Some? then Failure(fault.value)
    else
      var p := InstagramPost(s.nextId, mediaUrl, caption, scheduleFor, Pending, None);
      var s' := Store(s.posts + [p], s.nextId + 1);
      assert forall i :: 0 <= i < |s.posts| ==> s'.posts[i] == s.posts[i];
      Success((s', p))
  }

  /** `scheduleInstagramPost`: store a new PENDING post and return nothing. */
  function SchedulePost(s: Store, mediaUrl: string, caption: string, scheduleFor: Time, fault: Option<Fault>)
    : (r: Result<Store, Fault>)
    ensures fault.Some? ==> r == Failure(fault.value)
    ensures fault.None? ==> r.Success? && |r.value.posts| == |s.posts| + 1
    ensures r.Success? ==> r.value.posts[..|s.posts|] == s.posts
    ensures r.Success? ==> var p := r.value.posts[|s.posts|];
      p == InstagramPost(p.id, mediaUrl, caption, scheduleFor, Pending, None)
    ensures r.Success? && Valid(s) ==> Valid(r.value)
  {
    match Create(s, mediaUrl, caption, scheduleFor, fault)
    case Failure(f) => Failure(f)
    case Success(created) =>
      assert created.0.posts[..|s.posts|] == s.posts;
      Success(created.0)
  }

  // ---------------------------------------------------------------- selection

  /** A post is due at `now` when it is still PENDING and its time has come. */
  predicate IsDue(p: InstagramPost, now: Time)
  {
    p.status == Pending && p.scheduleFor <= now
  }

  /** `findMany` with `status: "PENDING"` and `scheduleFor <= now`, in table order. */
  function DuePending(posts: seq<InstagramPost>, now: Time): (due: seq<InstagramPost>)
    ensures |due| <= |posts|
    decreases |posts|
  {
    if |posts| == 0 then []
    else
      var init := posts[..|posts| - 1];
      var last := posts[|posts| - 1];
      var rest := DuePending(init, now);
      if IsDue(last, now) then rest + [last] else rest
  }

  /** The selection holds every due row exactly as often as the table does, and nothing else. */
  lemma {:induction false} DueSelection(posts: seq<InstagramPost>, now: Time)
    ensures forall p :: multiset(DuePending(posts, now))[p] == if IsDue(p, now) then multiset(posts)[p] else 0
    decreases |posts|
  {
    if |posts| > 0 {
      var init := posts[..|posts| - 1];
      var last := posts[|posts| - 1];
      assert posts == init + [last];
      DueSelection(init, now);
    }
  }

  /** A row is selected exactly when it is in the table and due. */
  lemma DueMembership(posts: seq<InstagramPost>, now: Time)
    ensures forall p :: p in DuePending(posts, now) <==> p in posts && IsDue(p, now)
  {
    DueSelection(posts, now);
    forall p ensures p in DuePending(posts, now) <==> p in posts && IsDue(p, now) {
      assert p in DuePending(posts, now) <==> multiset(DuePending(posts, now))[p] > 0;
      assert p in posts <==> multiset(posts)[p] > 0;
    }
  }

  // ---------------------------------------------------------------- the sweep

  /** The platform's answer to the two-step publish: the new media id, or what it threw. */
  datatype PublishResult = Published(externalId: string) | PublishFailed(fault: Fault)

  /** `createInstagramPost(credentials, mediaUrl, caption)`, left uninterpreted. */
  type Publisher = (Credentials, string, string) -> PublishResult

  /** Whether the store's update of post `id` to a status throws, and with what. */
  type Writer = (nat, Status) -> Option<Fault>

  /** The terminal change the sweep writes into one post. */
  datatype Change = ToPosted | ToFailed(message: string)

  /** The row after an update: POSTED sets only the status; FAILED sets the status and the error. */
  function Apply(p: InstagramPost, c: Change): (q: InstagramPost)
    ensures q.id == p.id && q.mediaUrl == p.mediaUrl && q.caption == p.caption && q.scheduleFor == p.scheduleFor
    ensures q.status != Pending
    ensures c.ToPosted? ==> q.status == Posted && q.error == p.error
    ensures c.ToFailed? ==> q.status == Failed && q.error == Some(c.message)
  {
    match c
    case ToPosted => p.(status := Posted)
    case ToFailed(m) => p.(status := Failed, error := Some(m))
  }

  /** `prisma.instagramPost.update({ where: { id } })`: every row with that id gets the change. */
  function UpdateById(posts: seq<InstagramPost>, id: nat, c: Change): (r: seq<InstagramPost>)
    ensures |r| == |posts|
    ensures forall i :: 0 <= i < |posts| ==> r[i] == if posts[i].id == id then Apply(posts[i], c) else posts[i]
    decreases |posts|
  {
    if |posts| == 0 then []
    else
      var head := if posts[0].id == id then Apply(posts[0], c) else posts[0];
      [head] + UpdateById(posts[1..], id, c)
  }

  /** The try/catch block for one due post: the change it writes, or the fault that escapes
      the catch block because the FAILED write itself threw. A failed POSTED write is caught
      like a failed publish. */
  function Attempt(p: InstagramPost, creds: Credentials, publish: Publisher, write: Writer): (r: Result<Change, Fault>)
    ensures r.Failure? ==> write(p.id, Failed) == Some(r.error)
    ensures r == Success(ToPosted) ==> publish(creds, p.mediaUrl, p.caption).Published? && write(p.id, Posted).None?
  {
    var thrown: Option<Fault> :=
      match publish(creds, p.mediaUrl, p.caption)
      case PublishFailed(f) => Some(f)
      case Published(_) => write(p.id, Posted);
    match thrown
    case None => Success(ToPosted)
    case Some(f) =>
      match write(p.id, Failed)
      case Some(g) => Failure(g)
      case None => Success(ToFailed(ErrorText(f)))
  }

  /** A post ends POSTED exactly when the publish and the POSTED write both succeed; otherwise it
      ends FAILED with the text of what was thrown first, unless the FAILED write throws too, and
      only then does the attempt throw. */
  lemma AttemptSpec(p: InstagramPost, creds: Credentials, publish: Publisher, write: Writer)
    ensures var r := Attempt(p, creds, publish, write);
      r == Success(ToPosted) <==> publish(creds, p.mediaUrl, p.caption).Published? && write(p.id, Posted).None?
    ensures var r := Attempt(p, creds, publish, write);
      r.Failure? <==>
        && !(publish(creds, p.mediaUrl, p.caption).Published? && write(p.id, Posted).None?)
        && write(p.id, Failed).Some?
    ensures var r := Attempt(p, creds, publish, write);
      r.Failure? ==> r.error == write(p.id, Failed).value
    ensures var r := Attempt(p, creds, publish, write);
      r.Success? && r.value.ToFailed? ==>
        r.value.message == ErrorText(
          if publish(creds, p.mediaUrl, p.caption).PublishFailed?
          then publish(creds, p.mediaUrl, p.caption).fault
          else write(p.id, Posted).value)
  {
  }

  /** How a sweep ended. */
  datatype SweepOutcome =
    | Completed
    | ReadFailed(fault: Fault)   // the selection or the credential read threw; nothing was attempted
    | CredentialsUnavailable     // no valid credentials; nothing was attempted
    | Aborted(fault: Fault)      // a FAILED write threw; the posts after it were not attempted

  datatype SweepResult = SweepResult(store: Store, outcome: SweepOutcome)

  /** What the sweep's promise rejects with: nothing when it completes, the fixed credentials error
      when credentials are missing or expired, and otherwise the fault that escaped. */
  function Thrown(o: SweepOutcome): (r: Option<Fault>)
    ensures r.None? <==> o == Completed
    ensures o == CredentialsUnavailable ==> r == Some(Fault(Some(CredentialsUnavailableMessage)))
    ensures o.ReadFailed? || o.Aborted? ==> r == Some(o.fault)
  {
    match o
    case Completed => None
    case ReadFailed(f) => Some(f)
    case CredentialsUnavailable => Some(Fault(Some(CredentialsUnavailableMessage)))
    case Aborted(f) => Some(f)
  }

  /** Whether the two database reads of a sweep throw: the `findMany` selection, which runs first,
      and the `findUnique` of the stored authorisation record. */
  datatype ReadFaults = ReadFaults(selection: Option<Fault>, credentials: Option<Fault>)

  predicate ReadsSucceed(readFaults: ReadFaults)
  {
    readFaults.selection.None? && readFaults.credentials.None?
  }

  /** The `for` loop over the selected posts, in order. */
  function ProcessDue(s: Store, due: seq<InstagramPost>, creds: Credentials, publish: Publisher, write: Writer)
    : (r: SweepResult)
    ensures r.store.nextId == s.nextId && |r.store.posts| == |s.posts|
    ensures !r.outcome.CredentialsUnavailable? && !r.outcome.ReadFailed?
    decreases |due|
  {
    if |due| == 0 then SweepResult(s, Completed)
    else
      match Attempt(due[0], creds, publish, write)
      case Failure(f) => SweepResult(s, Aborted(f))
      case Success(c) =>
        ProcessDue(Store(UpdateById(s.posts, due[0].id, c), s.nextId), due[1..], creds, publish, write)
  }

  /** `processScheduledPosts`: select the due posts, then insist on credentials (even when nothing
      is due), then attempt every due post in turn. A read that throws rejects the sweep before
      any post is attempted; the selection is read first. */
  function ProcessScheduledPosts(s: Store, readFaults: ReadFaults, auth: Option<InstagramAuth>, now: Time,
                                 publish: Publisher, write: Writer)
    : (r: SweepResult)
    ensures readFaults.selection.Some? ==> r == SweepResult(s, ReadFailed(readFaults.selection.value))
    ensures readFaults.selection.None? && readFaults.credentials.Some? ==> r == SweepResult(s, ReadFailed(readFaults.credentials.value))
    ensures ReadsSucceed(readFaults) && GetCredentials(auth, now).None? ==> r == SweepResult(s, CredentialsUnavailable)
    ensures ReadsSucceed(readFaults) && GetCredentials(auth, now).Some? ==> r.outcome.Completed? || r.outcome.Aborted?
    ensures r.store.nextId == s.nextId && |r.store.posts| == |s.posts|
  {
    match readFaults.selection
    case Some(f) => SweepResult(s, ReadFailed(f))
    case None =>
      var due := DuePending(s.posts, now);
      match readFaults.credentials
      case Some(f) => SweepResult(s, ReadFailed(f))
      case None =>
        match GetCredentials(auth, now)
        case None => SweepResult(s, CredentialsUnavailable)
        case Some(creds) => ProcessDue(s, due, creds, publish, write)
  }
}

=== FILE: local_posts.dfy ===
/** The browser-side post list shared by both list views and both forms: the `ScheduledPost`
    record, the "scheduledPosts" local-storage entry, and the list operations on it. */
module LocalPosts {
  import opened Wrappers

  /** A post as kept in local storage. `status` is the raw string read back from JSON. */
  datatype ScheduledPost = ScheduledPost(id: int, caption: string, imageUrl: string, scheduledAt: string, status: string)

  const PendingStatus: string := "pending"
  const PostedStatus: string := "posted"

  const PendingLabel: string := "待機中"
  const PostedLabel: string := "投稿済み"
  const ErrorLabel: string := "エラー"

  /** The "scheduledPosts" entry: absent, not a JSON array, or a saved list. */
  datatype Stored = Missing | Corrupt | Saved(posts: seq<ScheduledPost>)

  /** `JSON.parse(localStorage.getItem("scheduledPosts") || "[]")`: a missing entry reads as the
      empty list; `None` is a parse that throws. */
  function ReadPosts(stored: Stored): (r: Option<seq<ScheduledPost>>)
    ensures r.None? <==> stored.Corrupt?
    ensures stored.Missing? ==> r == Some([])
    ensures stored.Saved? ==> r == Some(stored.posts)
  {
    match stored
    case Missing => Some([])
    case Corrupt => None
    case Saved(posts) => Some(posts)
  }

  /** The badge text for a status: total, and every other string reads as an error. */
  function StatusLabel(status: string): (badge: string)
    ensures badge in {PendingLabel, PostedLabel, ErrorLabel}
    ensures badge == PendingLabel <==> status == PendingStatus
    ensures badge == PostedLabel <==> status == PostedStatus
  {
    if status == PendingStatus then PendingLabel
    else if status == PostedStatus then PostedLabel
    else ErrorLabel
  }

  /** The buttons a list row offers. */
  datatype Actions = Actions(edit: bool, delete: bool)

  /** `posts.filter(post => post.id !== id)`. */
  function RemoveId(posts: seq<ScheduledPost>, id: int): (r: seq<ScheduledPost>)
    ensures |r| <= |posts|
    decreases |posts|
  {
    if |posts| == 0 then []
    else
      var init := posts[..|posts| - 1];
      var last := posts[|posts| - 1];
      if last.id == id then RemoveId(init, id) else RemoveId(init, id) + [last]
  }

  /** Delete drops every post carrying the id and keeps every other post as often as it occurred. */
  lemma {:induction false} RemoveIdSpec(posts: seq<ScheduledPost>, id: int)
    ensures forall p :: multiset(RemoveId(posts, id))[p] == if p.id == id then 0 else multiset(posts)[p]
    ensures forall p :: p in RemoveId(posts, id) <==> p in posts && p.id != id
    decreases |posts|
  {
    if |posts| > 0 {
      var init := posts[..|posts| - 1];
      var last := posts[|posts| - 1];
      assert posts == init + [last];
      RemoveIdSpec(init, id);
    }
  }

  /** `posts.map(p => p.id === post.id ? post : p)`. */
  function ReplaceById(posts: seq<ScheduledPost>, post: ScheduledPost): (r: seq<ScheduledPost>)
    ensures |r| == |posts|
    ensures forall i :: 0 <= i < |posts| ==> r[i] == if posts[i].id == post.id then post else posts[i]
    decreases |posts|
  {
    if |posts| == 0 then []
    else
      var init := posts[..|posts| - 1];
      var last := posts[|posts| - 1];
      ReplaceById(init, post) + [if last.id == post.id then post else last]
  }

  /** Filtering works piece by piece, so the kept posts keep their relative order. */
  lemma {:induction false} RemoveIdConcat(a: seq<ScheduledPost>, b: seq<ScheduledPost>, id: int)
    ensures RemoveId(a + b, id) == RemoveId(a, id) + RemoveId(b, id)
    decreases |b|
  {
    if |b| == 0 {
      assert a + b == a;
    } else {
      var init := b[..|b| - 1];
      var last := b[|b| - 1];
      assert b == init + [last];
      assert a + b == (a + init) + [last];
      RemoveIdConcat(a, init, id);
      RemoveIdSnoc(a + init, last, id);
      RemoveIdSnoc(init, last, id);
    }
  }

  /** Filtering a list with one more post at the end. */
  lemma RemoveIdSnoc(posts: seq<ScheduledPost>, last: ScheduledPost, id: int)
    ensures RemoveId(posts + [last], id) ==
      if last.id == id then RemoveId(posts, id) else RemoveId(posts, id) + [last]
  {
    var all := posts + [last];
    assert all[..|all| - 1] == posts;
  }

  /** Deleting an id nobody carries changes nothing. */
  lemma {:induction false} RemoveAbsentId(posts: seq<ScheduledPost>, id: int)
    requires forall i :: 0 <= i < |posts| ==> posts[i].id != id
    ensures RemoveId(posts, id) == posts
    decreases |posts|
  {
    if |posts| > 0 {
      var init := posts[..|posts| - 1];
      assert posts == init + [posts[|posts| - 1]];
      RemoveAbsentId(init, id);
    }
  }

  /** Deleting the same id twice is deleting it once. */
  lemma RemoveIdIdempotent(posts: seq<ScheduledPost>, id: int)
    ensures RemoveId(RemoveId(posts, id), id) == RemoveId(posts, id)
  {
    var r := RemoveId(posts, id);
    RemoveIdSpec(posts, id);
    forall i | 0 <= i < |r| ensures r[i].id != id {
      assert r[i] in r;
    }
    RemoveAbsentId(r, id);
  }

  /** A post appended under a fresh id is removed again by deleting that id. */
  lemma RemoveAppended(posts: seq<ScheduledPost>, p: ScheduledPost)
    requires forall i :: 0 <= i < |posts| ==> posts[i].id != p.id
    ensures RemoveId(posts + [p], p.id) == posts
  {
    RemoveIdConcat(posts, [p], p.id);
    RemoveAbsentId(posts, p.id);
    assert [p][..0] == [];
  }

  /** Updating with an id nobody carries changes nothing. */
  lemma ReplaceAbsentId(posts: seq<ScheduledPost>, post: ScheduledPost)
    requires forall i :: 0 <= i < |posts| ==> posts[i].id != post.id
    ensures ReplaceById(posts, post) == posts
  {
  }

  /** Updating twice with the same post is updating once, and the ids stay where they were. */
  lemma ReplaceIdempotent(posts: seq<ScheduledPost>, post: ScheduledPost)
    ensures ReplaceById(ReplaceById(posts, post), post) == ReplaceById(posts, post)
    ensures forall i :: 0 <= i < |posts| ==> ReplaceById(posts, post)[i].id == posts[i].id
  {
  }

  /** Deleting an id after updating it removes the same posts as deleting it straight away. */
  lemma {:induction false} RemoveAfterReplace(posts: seq<ScheduledPost>, post: ScheduledPost)
    ensures RemoveId(ReplaceById(posts, post), post.id) == RemoveId(posts, post.id)
    decreases |posts|
  {
    if |posts| > 0 {
      var init := posts[..|posts| - 1];
      var last := posts[|posts| - 1];
      var last' := if last.id == post.id then post else last;
      RemoveAfterReplace(init, post);
      RemoveIdSnoc(ReplaceById(init, post), last', post.id);
    }
  }
}

=== FILE: post_form.dfy ===
/** The date-picker-and-time form (components/post-form.tsx): the required-field guard, the
    splitting of the date and time strings into the numbers handed to the `Date` constructor,
    the new PENDING post appended to local storage, and the form reset. */
module PostForm {
  import opened Wrappers
  import opened Text
  import opened LocalPosts

  /** The form's fields: the image as a data URL, the caption, the picked day as an ISO string,
      and the `HH:mm` time. */
  datatype FormData = FormData(image: string, caption: string, scheduledDate: string, scheduledTime: string)

  const EmptyForm: FormData := FormData("", "", "", "")

  /** The arguments of `new Date(year, monthIndex, day, hours, minutes)`. */
  datatype DateParts = DateParts(year: int, monthIndex: int, day: int, hours: int, minutes: int)

  /** The alert shown after a submit. */
  datatype Notice = FieldsRequired | Scheduled | SaveFailed

  /** Storage, form and alert after a submit. */
  datatype Submission = Submission(stored: Stored, form: FormData, notice: Notice)

  /** `parseInt` of the `k`-th destructured piece; a missing piece is `undefined`, which parses to NaN. */
  function NumberAt(pieces: seq<string>, k: nat): (r: Option<int>)
    ensures k >= |pieces| ==> r.None?
    ensures k < |pieces| ==> r == ParseInt(pieces[k])
  {
    match PieceAt(pieces, k)
    case None => None
    case Some(piece) => ParseInt(piece)
  }

  /** `scheduledDate.split("T")[0].split("-")`: year, month and day as text. */
  function DatePieces(scheduledDate: string): (pieces: seq<string>)
  {
    Split(Before(scheduledDate, 'T'), '-')
  }

  /** `scheduledTime.split(":")`: hours and minutes as text. */
  function TimePieces(scheduledTime: string): (pieces: seq<string>)
  {
    Split(scheduledTime, ':')
  }

  /** The numbers handed to the `Date` constructor, or `None` when any of them is NaN, in which
      case the resulting date is invalid. The month index is the written month minus one. */
  function DateArguments(scheduledDate: string, scheduledTime: string): (r: Option<DateParts>)
    ensures r.Some? <==>
      && NumberAt(DatePieces(scheduledDate), 0).Some?
      && NumberAt(DatePieces(scheduledDate), 1).Some?
      && NumberAt(DatePieces(scheduledDate), 2).Some?
      && NumberAt(TimePieces(scheduledTime), 0).Some?
      && NumberAt(TimePieces(scheduledTime), 1).Some?
    ensures r.Some? ==>
      && r.value.year == NumberAt(DatePieces(scheduledDate), 0).value
      && r.value.monthIndex == NumberAt(DatePieces(scheduledDate), 1).value - 1
      && r.value.day == NumberAt(DatePieces(scheduledDate), 2).value
      && r.value.hours == NumberAt(TimePieces(scheduledTime), 0).value
      && r.value.minutes == NumberAt(TimePieces(scheduledTime), 1).value
  {
    ArgumentsOf(DatePieces(scheduledDate), TimePieces(scheduledTime))
  }

  /** The constructor arguments read from the date pieces and the time pieces. */
  function ArgumentsOf(date: seq<string>, time: seq<string>): (r: Option<DateParts>)
  {
    var year, month, day := NumberAt(date, 0), NumberAt(date, 1), NumberAt(date, 2);
    var hours, minutes := NumberAt(time, 0), NumberAt(time, 1);
    if year.Some? && month.Some? && day.Some? && hours.Some? && minutes.Some?
    then Some(DateParts(year.value, month.value - 1, day.value, hours.value, minutes.value))
    else None
  }

  /** A day written `Y-M-D` followed by `T` and anything splits into its three parts. */
  lemma DatePiecesOfWrittenDate(y: string, m: string, d: string, rest: string)
    requires '-' !in y && '-' !in m && '-' !in d
    requires 'T' !in y && 'T' !in m && 'T' !in d
    ensures DatePieces(y + "-" + m + "-" + d + "T" + rest) == [y, m, d]
  {
    var day := y + "-" + m + "-" + d;
    assert 'T' !in day;
    BeforeSeparator(day, 'T', rest);
    SplitThree(y, m, d, '-');
  }

  /** A time written `h:mi` splits into its two parts. */
  lemma TimePiecesOfWrittenTime(h: string, mi: string)
    requires ':' !in h && ':' !in mi
    ensures TimePieces(h + ":" + mi) == [h, mi]
  {
    SplitTwo(h, mi, ':');
  }

  /** Date and time pieces that parse give the five constructor arguments, the month lowered by one. */
  lemma DateArgumentsOfPieces(date: string, time: string, a: string, b: string, c: string, e: string, f: string,
                              y: int, m: int, d: int, h: int, mi: int)
    requires DatePieces(date) == [a, b, c] && TimePieces(time) == [e, f]
    requires ParseInt(a) == Some(y) && ParseInt(b) == Some(m) && ParseInt(c) == Some(d)
    requires ParseInt(e) == Some(h) && ParseInt(f) == Some(mi)
    ensures DateArguments(date, time) == Some(DateParts(y, m - 1, d, h, mi))
  {
    ArgumentsOfNumbers(a, b, c, e, f, y, m, d, h, mi);
  }

  /** Pieces that parse are read as the five arguments, the month lowered by one. */
  lemma ArgumentsOfNumbers(a: string, b: string, c: string, e: string, f: string,
                           y: int, m: int, d: int, h: int, mi: int)
    requires ParseInt(a) == Some(y) && ParseInt(b) == Some(m) && ParseInt(c) == Some(d)
    requires ParseInt(e) == Some(h) && ParseInt(f) == Some(mi)
    ensures ArgumentsOf([a, b, c], [e, f]) == Some(DateParts(y, m - 1, d, h, mi))
  {
    var datePieces, timePieces := [a, b, c], [e, f];
    assert NumberAt(datePieces, 0) == Some(y);
    assert NumberAt(datePieces, 1) == Some(m);
    assert NumberAt(datePieces, 2) == Some(d);
    assert NumberAt(timePieces, 0) == Some(h);
    assert NumberAt(timePieces, 1) == Some(mi);
  }

  /** A day written `Y-M-D` followed by `T` and anything, and a time written `h:mi`, whose parts
      contain no separator and parse to numbers, yield those numbers, the month lowered by one. */
  lemma DateArgumentsOfWrittenDate(ys: string, ms: string, ds: string, rest: string, hs: string, mis: string,
                                   y: int, m: int, d: int, h: int, mi: int)
    requires '-' !in ys && '-' !in ms && '-' !in ds && 'T' !in ys && 'T' !in ms && 'T' !in ds
    requires ':' !in hs && ':' !in mis
    requires ParseInt(ys) == Some(y) && ParseInt(ms) == Some(m) && ParseInt(ds) == Some(d)
    requires ParseInt(hs) == Some(h) && ParseInt(mis) == Some(mi)
    ensures DateArguments(ys + "-" + ms + "-" + ds + "T" + rest, hs + ":" + mis) == Some(DateParts(y, m - 1, d, h, mi))
  {
    var date := ys + "-" + ms + "-" + ds + "T" + rest;
    var time := hs + ":" + mis;
    DatePiecesOfWrittenDate(ys, ms, ds, rest);
    TimePiecesOfWrittenTime(hs, mis);
    DateArgumentsOfPieces(date, time, ys, ms, ds, hs, mis, y, m, d, h, mi);
  }

  /** A numeral on its own parses to its number and contains none of the date and time separators,
      so numerals meet every requirement of `DateArgumentsOfWrittenDate`. */
  lemma {:induction false} NumeralPiece(s: string)
    requires Numeral(s)
    requires DigitsValue(s) <= MaxSafeInteger
    ensures ParseInt(s) == Some(DigitsValue(s) as int)
    ensures '-' !in s && 'T' !in s && ':' !in s
  {
    ParseIntNumeral(s, "");
    assert s + "" == s;
    NumeralExcludes(s, '-');
    NumeralExcludes(s, 'T');
    NumeralExcludes(s, ':');
  }

  /** The required-field check: a date, a time and an image; the caption may be empty. */
  predicate Complete(form: FormData)
  {
    form.scheduledDate != "" && form.scheduledTime != "" && form.image != ""
  }

  /** `handleSubmit`. `now` is `Date.now()`, used as the new id; `toIso` is `toISOString` of the
      constructed date, `None` where it throws. An invalid date (a NaN argument) throws too. */
  function HandleSubmit(form: FormData, stored: Stored, now: int, toIso: DateParts -> Option<string>): (r: Submission)
    ensures r.notice == FieldsRequired <==> !Complete(form)
    ensures r.notice != Scheduled ==> r.stored == stored && r.form == form
    ensures r.notice == Scheduled <==>
      Complete(form) && !stored.Corrupt? &&
      DateArguments(form.scheduledDate, form.scheduledTime).Some? &&
      toIso(DateArguments(form.scheduledDate, form.scheduledTime).value).Some?
    ensures r.notice == Scheduled ==>
      var at := toIso(DateArguments(form.scheduledDate, form.scheduledTime).value).value;
      && r.form == EmptyForm
      && r.stored == Saved(ReadPosts(stored).value + [ScheduledPost(now, form.caption, form.image, at, PendingStatus)])
  {
    if !Complete(form) then Submission(stored, form, FieldsRequired)
    else
      match ReadPosts(stored)
      case None => Submission(stored, form, SaveFailed)
      case Some(current) =>
        match DateArguments(form.scheduledDate, form.scheduledTime)
        case None => Submission(stored, form, SaveFailed)
        case Some(parts) =>
          match toIso(parts)
          case None => Submission(stored, form, SaveFailed)
          case Some(at) =>
            var post := ScheduledPost(now, form.caption, form.image, at, PendingStatus);
            Submission(Saved(current + [post]), EmptyForm, Scheduled)
  }

  /** A successful submit appends exactly one post and leaves every earlier post where it was. */
  lemma SubmitAppendsOne(form: FormData, stored: Stored, now: int, toIso: DateParts -> Option<string>)
    requires HandleSubmit(form, stored, now, toIso).notice == Scheduled
    ensures var after := HandleSubmit(form, stored, now, toIso).stored.posts;
      var before := ReadPosts(stored).value;
      && |after| == |before| + 1
      && after[..|before|] == before
      && after[|before|].status == PendingStatus
      && after[|before|].caption == form.caption
      && after[|before|].imageUrl == form.image
  {
    var after := HandleSubmit(form, stored, now, toIso).stored.posts;
    var before := ReadPosts(stored).value;
    assert after[..|before|] == before;
  }

  /** The day picker's `onSelect`: the picked day's full ISO string, or empty when cleared. */
  function SelectDate(form: FormData, picked: Option<string>): (r: FormData)
    ensures r.image == form.image && r.caption == form.caption && r.scheduledTime == form.scheduledTime
    ensures picked.None? ==> r.scheduledDate == ""
    ensures picked.Some? ==> r.scheduledDate == picked.value
  {
    form.(scheduledDate := if picked.Some? then picked.value else "")
  }
}

=== FILE: schedule_route.dfy ===
/** The intake endpoint (app/api/instagram/schedule/route.ts): validate the JSON body against the
    schema, create a PENDING post, and classify the answer as 200, 400 or 500.
    URL and ISO-8601 datetime validity and date parsing are supplied as functions. */
module ScheduleRoute {
  import opened Wrappers
  import opened Instagram

  /** A JSON member as the schema sees it: a string, or anything else. */
  datatype JsonField = JString(text: string) | JNonString

  /** A parsed request body: an object with its members, or some other JSON value. */
  datatype Json = JObject(fields: map<string, JsonField>) | JNonObject

  datatype IssueCode = InvalidType | InvalidUrl | InvalidDatetime

  /** One validation error: the offending key (empty for the body itself) and what is wrong with it. */
  datatype Issue = Issue(path: string, code: IssueCode)

  /** A body that passed the schema. */
  datatype ScheduleRequest = ScheduleRequest(mediaUrl: string, caption: string, scheduleFor: string)

  datatype ResponseBody = PostBody(post: InstagramPost) | IssuesBody(issues: seq<Issue>) | MessageBody(message: string)

  /** The HTTP answer: status code, the `success` flag and the rest of the JSON payload. */
  datatype Response = Response(status: nat, success: bool, body: ResponseBody)

  const ScheduleFailedMessage: string := "投稿のスケジュールに失敗しました"

  /** True when `key` holds a string that satisfies `valid`. */
  predicate Holds(fields: map<string, JsonField>, key: string, valid: string -> bool)
  {
    key in fields && fields[key].JString? && valid(fields[key].text)
  }

  /** The caption schema is `z.string()`: any string at all. */
  predicate AnyString(text: string) { true }

  /** The issues zod reports for one key: a missing or non-string value is an `invalid_type`;
      a string failing the format check is reported with `code`. */
  function KeyIssues(fields: map<string, JsonField>, key: string, valid: string -> bool, code: IssueCode): (issues: seq<Issue>)
    ensures |issues| == 0 <==> Holds(fields, key, valid)
    ensures forall i :: 0 <= i < |issues| ==> issues[i].path == key
  {
    if key !in fields || fields[key].JNonString? then [Issue(key, InvalidType)]
    else if !valid(fields[key].text) then [Issue(key, code)]
    else []
  }

  /** `scheduleSchema.parse(body)`: every issue of every key, in schema order, or the three strings. */
  function Validate(body: Json, isUrl: string -> bool, isDatetime: string -> bool): (r: Result<ScheduleRequest, seq<Issue>>)
    ensures r.Success? <==>
      body.JObject? &&
      Holds(body.fields, "mediaUrl", isUrl) &&
      Holds(body.fields, "caption", AnyString) &&
      Holds(body.fields, "scheduleFor", isDatetime)
    ensures r.Success? ==>
      && r.value.mediaUrl == body.fields["mediaUrl"].text
      && r.value.caption == body.fields["caption"].text
      && r.value.scheduleFor == body.fields["scheduleFor"].text
    ensures r.Failure? ==> |r.error| > 0
    ensures r.Failure? ==> forall i :: 0 <= i < |r.error| ==>
      r.error[i].path in {"", "mediaUrl", "caption", "scheduleFor"}
  {
    match body
    case JNonObject => Failure([Issue("", InvalidType)])
    case JObject(fields) =>
      var issues :=
        KeyIssues(fields, "mediaUrl", isUrl, InvalidUrl) +
        KeyIssues(fields, "caption", AnyString, InvalidType) +
        KeyIssues(fields, "scheduleFor", isDatetime, InvalidDatetime);
      if |issues| > 0 then Failure(issues)
      else Success(ScheduleRequest(fields["mediaUrl"].text, fields["caption"].text, fields["scheduleFor"].text))
  }

  /** The `POST` handler. `body` is `None` when `request.json()` throws; `fault` is a failure of the
      store's `create`. Anything thrown that is not a validation error becomes the generic 500. */
  function HandlePost(s: Store, body: Option<Json>, isUrl: string -> bool, isDatetime: string -> bool,
                      parseDate: string -> Time, fault: Option<Fault>): (r: (Store, Response))
    ensures r.1.success <==> r.1.status == 200
    ensures r.1.status == 200 <==> body.Some? && Validate(body.value, isUrl, isDatetime).Success? && fault.None?
    ensures r.1.status == 400 <==> body.Some? && Validate(body.value, isUrl, isDatetime).Failure?
    ensures r.1.status in {200, 400, 500}
    ensures r.1.status == 400 ==> r.1.body == IssuesBody(Validate(body.value, isUrl, isDatetime).error)
    ensures r.1.status == 500 ==> r.1.body == MessageBody(ScheduleFailedMessage)
    ensures r.1.status != 200 ==> r.0 == s
    ensures r.1.status == 200 ==>
      var req := Validate(body.value, isUrl, isDatetime).value;
      && r.1.body.PostBody?
      && r.0.posts == s.posts + [r.1.body.post]
      && r.1.body.post.status == Pending
      && r.1.body.post.mediaUrl == req.mediaUrl
      && r.1.body.post.caption == req.caption
      && r.1.body.post.scheduleFor == parseDate(req.scheduleFor)
    ensures Valid(s) ==> Valid(r.0)
  {
    var serverError := Response(500, false, MessageBody(ScheduleFailedMessage));
    match body
    case None => (s, serverError)
    case Some(json) =>
      match Validate(json, isUrl, isDatetime)
      case Failure(issues) => (s, Response(400, false, IssuesBody(issues)))
      case Success(req) =>
        match Create(s, req.mediaUrl, req.caption, parseDate(req.scheduleFor), fault)
        case Failure(_) => (s, serverError)
        case Success(created) => (created.0, Response(200, true, PostBody(created.1)))
  }

  /** An empty caption passes the schema: only the URL and the datetime are constrained. */
  lemma EmptyCaptionAccepted(s: Store, mediaUrl: string, scheduleFor: string,
                             isUrl: string -> bool, isDatetime: string -> bool, parseDate: string -> Time)
    requires isUrl(mediaUrl) && isDatetime(scheduleFor)
    ensures var body := JObject(map["mediaUrl" := JString(mediaUrl), "caption" := JString(""), "scheduleFor" := JString(scheduleFor)]);
      var r := HandlePost(s, Some(body), isUrl, isDatetime, parseDate, None);
      r.1.status == 200 && r.1.body.post.caption == "" && r.0.posts == s.posts + [r.1.body.post]
  {
    var body := JObject(map["mediaUrl" := JString(mediaUrl), "caption" := JString(""), "scheduleFor" := JString(scheduleFor)]);
    assert Holds(body.fields, "caption", AnyString);
  }

  /** Whether a body is accepted does not depend on the caption's text, only on its being a string. */
  lemma CaptionTextIrrelevant(fields: map<string, JsonField>, c1: string, c2: string,
                              isUrl: string -> bool, isDatetime: string -> bool)
    ensures Validate(JObject(fields["caption" := JString(c1)]), isUrl, isDatetime).Success? ==
            Validate(JObject(fields["caption" := JString(c2)]), isUrl, isDatetime).Success?
  {
    var f1 := fields["caption" := JString(c1)];
    var f2 := fields["caption" := JString(c2)];
    assert Holds(f1, "mediaUrl", isUrl) == Holds(f2, "mediaUrl", isUrl);
    assert Holds(f1, "scheduleFor", isDatetime) == Holds(f2, "scheduleFor", isDatetime);
    assert Holds(f1, "caption", AnyString) && Holds(f2, "caption", AnyString);
  }
}

=== FILE: scheduled_posts.dfy ===
/** The editable post list (components/scheduled-posts.tsx): loading from local storage,
    delete and update by id (both re-read storage first), the edit dialog, and the buttons
    offered per row. */
module ScheduledPosts {
  import opened Wrappers
  import opened LocalPosts

  /** The component's state together with the storage entry it reads and writes. */
  datatype View = View(stored: Stored, posts: seq<ScheduledPost>, editing: Option<ScheduledPost>)

  /** `loadPosts`: show what storage holds; a failed parse is logged and the display kept. */
  function LoadPosts(v: View): (r: View)
    ensures r.stored == v.stored && r.editing == v.editing
    ensures v.stored.Missing? ==> r.posts == []
    ensures v.stored.Saved? ==> r.posts == v.stored.posts
    ensures v.stored.Corrupt? ==> r.posts == v.posts
  {
    match ReadPosts(v.stored)
    case None => v
    case Some(current) => v.(posts := current)
  }

  /** `handleDelete(id)`: filter the list read from storage, write it back and show it.
      A failed parse is reported and changes nothing. */
  function HandleDelete(v: View, id: int): (r: View)
    ensures v.stored.Corrupt? ==> r == v
    ensures !v.stored.Corrupt? ==> r.stored == Saved(r.posts) && r.editing == v.editing
    ensures !v.stored.Corrupt? ==>
      forall p :: p in r.posts <==> p in ReadPosts(v.stored).value && p.id != id
    ensures !v.stored.Corrupt? ==>
      forall p :: multiset(r.posts)[p] == if p.id == id then 0 else multiset(ReadPosts(v.stored).value)[p]
  {
    match ReadPosts(v.stored)
    case None => v
    case Some(current) =>
      RemoveIdSpec(current, id);
      var remaining := RemoveId(current, id);
      View(Saved(remaining), remaining, v.editing)
  }

  /** Deleting keeps the other stored posts in their order: the result is the stored list with the
      matching posts cut out, and an id nobody carries leaves the stored list as it was. */
  lemma DeleteKeepsOrder(v: View, before: seq<ScheduledPost>, target: ScheduledPost, after: seq<ScheduledPost>)
    requires v.stored == Saved(before + [target] + after)
    ensures HandleDelete(v, target.id).posts == RemoveId(before, target.id) + RemoveId(after, target.id)
  {
    RemoveIdConcat(before + [target], after, target.id);
    RemoveIdConcat(before, [target], target.id);
    assert [target][..0] == [];
  }

  lemma DeleteAbsentId(v: View, id: int)
    requires v.stored.Saved?
    requires forall i :: 0 <= i < |v.stored.posts| ==> v.stored.posts[i].id != id
    ensures HandleDelete(v, id) == View(v.stored, v.stored.posts, v.editing)
  {
    RemoveAbsentId(v.stored.posts, id);
  }

  /** `handleUpdate(post)`: replace the posts carrying `post.id` in the list read from storage,
      write it back, show it, and close the editor. A failed parse changes nothing. */
  function HandleUpdate(v: View, post: ScheduledPost): (r: View)
    ensures v.stored.Corrupt? ==> r == v
    ensures !v.stored.Corrupt? ==> r.stored == Saved(r.posts) && r.editing.None?
    ensures !v.stored.Corrupt? ==>
      var current := ReadPosts(v.stored).value;
      |r.posts| == |current| &&
      forall i :: 0 <= i < |current| ==> r.posts[i] == if current[i].id == post.id then post else current[i]
  {
    match ReadPosts(v.stored)
    case None => v
    case Some(current) =>
      var updated := ReplaceById(current, post);
      View(Saved(updated), updated, None)
  }

  /** Edit and delete buttons appear only on PENDING rows. */
  function Offered(p: ScheduledPost): (a: Actions)
    ensures a.edit <==> p.status == PendingStatus
    ensures a.delete <==> p.status == PendingStatus
  {
    var pending := p.status == PendingStatus;
    Actions(pending, pending)
  }

  /** The two fields the edit dialog can change. */
  datatype Edit = SetCaption(caption: string) | SetScheduledAt(scheduledAt: string)

  /** The pencil button: start editing a copy of the row. */
  function StartEdit(v: View, p: ScheduledPost): (r: View)
    ensures r.editing == Some(p) && r.posts == v.posts && r.stored == v.stored
  {
    v.(editing := Some(p))
  }

  /** One `onChange` of the dialog: only the caption or only the schedule of the copy changes. */
  function ApplyEdit(editing: Option<ScheduledPost>, e: Edit): (r: Option<ScheduledPost>)
    ensures r.Some? <==> editing.Some?
    ensures r.Some? ==>
      && r.value.id == editing.value.id
      && r.value.imageUrl == editing.value.imageUrl
      && r.value.status == editing.value.status
  {
    match editing
    case None => None
    case Some(p) =>
      match e
      case SetCaption(c) => Some(p.(caption := c))
      case SetScheduledAt(t) => Some(p.(scheduledAt := t))
  }

  /** A whole editing session, in order. */
  function ApplyEdits(editing: Option<ScheduledPost>, edits: seq<Edit>): (r: Option<ScheduledPost>)
    ensures r.Some? <==> editing.Some?
    ensures r.Some? ==>
      && r.value.id == editing.value.id
      && r.value.imageUrl == editing.value.imageUrl
      && r.value.status == editing.value.status
    decreases |edits|
  {
    if |edits| == 0 then editing
    else ApplyEdits(ApplyEdit(editing, edits[0]), edits[1..])
  }

  /** The dialog's update button: save the copy if there is one. */
  function ConfirmEdit(v: View): (r: View)
    ensures v.editing.None? ==> r == v
    ensures v.editing.Some? && !v.stored.Corrupt? ==> r.stored == Saved(r.posts) && r.editing.None?
    ensures v.stored.Corrupt? ==> r == v
  {
    match v.editing
    case None => v
    case Some(p) => HandleUpdate(v, p)
  }

  /** Editing a row through the dialog and confirming changes nothing but that row's caption and
      schedule: every row keeps its id, image and status, and rows with other ids are untouched. */
  lemma EditSessionChangesOnlyText(v: View, p: ScheduledPost, edits: seq<Edit>)
    requires v.stored.Saved?
    ensures var r := ConfirmEdit(View(v.stored, v.posts, ApplyEdits(Some(p), edits)));
      var before := v.stored.posts;
      && r.stored == Saved(r.posts)
      && |r.posts| == |before|
      && forall i :: 0 <= i < |before| ==>
        && r.posts[i].id == before[i].id
        && (before[i].id != p.id ==> r.posts[i] == before[i])
        && (before[i].id == p.id ==> r.posts[i].imageUrl == p.imageUrl && r.posts[i].status == p.status)
  {
  }

  /** When the edited row was the stored row itself, its image and status survive the session. */
  lemma EditOfStoredRowKeepsImageAndStatus(v: View, i: nat, edits: seq<Edit>)
    requires v.stored.Saved? && i < |v.stored.posts|
    ensures var before := v.stored.posts;
      var r := ConfirmEdit(View(v.stored, v.posts, ApplyEdits(Some(before[i]), edits)));
      r.posts[i].imageUrl == before[i].imageUrl && r.posts[i].status == before[i].status
  {
    EditSessionChangesOnlyText(v, v.stored.posts[i], edits);
  }
}

=== FILE: sweep_properties.dfy ===
/** What one run of `processScheduledPosts` does to the post table: which posts it touches,
    what each of them ends as, when it stops early, and why running it again changes nothing. */
module SweepProperties {
  import opened Wrappers
  import opened Instagram

  /** The first row of `rows` carrying identifier `id`. */
  function FindById(rows: seq<InstagramPost>, id: nat): (r: Option<InstagramPost>)
    ensures r.Some? ==> r.value in rows && r.value.id == id
    ensures r.None? <==> forall q :: q in rows ==> q.id != id
    decreases |rows|
  {
    if |rows| == 0 then None
    else if rows[0].id == id then Some(rows[0])
    else FindById(rows[1..], id)
  }

  /** The position of the first due post whose catch block throws, or `|due|` when none does. */
  function FirstFailure(due: seq<InstagramPost>, creds: Credentials, publish: Publisher, write: Writer): (k: nat)
    ensures k <= |due|
    ensures k < |due| ==> Attempt(due[k], creds, publish, write).Failure?
    decreases |due|
  {
    if |due| == 0 then 0
    else if Attempt(due[0], creds, publish, write).Failure? then 0
    else 1 + FirstFailure(due[1..], creds, publish, write)
  }

  /** Every attempt before the first failing one succeeds. */
  lemma {:induction false} BeforeFirstFailure(due: seq<InstagramPost>, creds: Credentials, publish: Publisher, write: Writer)
    ensures forall j :: 0 <= j < FirstFailure(due, creds, publish, write) ==> Attempt(due[j], creds, publish, write).Success?
    decreases |due|
  {
    if |due| > 0 && Attempt(due[0], creds, publish, write).Success? {
      BeforeFirstFailure(due[1..], creds, publish, write);
      forall j | 0 <= j < FirstFailure(due, creds, publish, write)
        ensures Attempt(due[j], creds, publish, write).Success?
      {
        if j > 0 { assert due[j] == due[1..][j - 1]; }
      }
    }
  }

  /** A row after the loop has worked through `done`: changed iff its id was among them. */
  function Processed(p: InstagramPost, done: seq<InstagramPost>, creds: Credentials, publish: Publisher, write: Writer)
    : (q: InstagramPost)
  {
    match FindById(done, p.id)
    case None => p
    case Some(q) =>
      match Attempt(q, creds, publish, write)
      case Success(c) => Apply(p, c)
      case Failure(_) => p
  }

  /** The loop attempts the due posts in order, stops at the first one whose catch block throws,
      and leaves row `i` as the attempts before that point decided. */
  lemma {:induction false} ProcessDueRow(s: Store, due: seq<InstagramPost>, creds: Credentials, publish: Publisher,
                                         write: Writer, i: nat)
    requires UniqueIds(due) && i < |s.posts|
    ensures var k := FirstFailure(due, creds, publish, write);
      ProcessDue(s, due, creds, publish, write).store.posts[i] == Processed(s.posts[i], due[..k], creds, publish, write)
    decreases |due|
  {
    var k := FirstFailure(due, creds, publish, write);
    if |due| == 0 {
    } else if Attempt(due[0], creds, publish, write).Failure? {
      assert due[..k] == [];
    } else {
      var c := Attempt(due[0], creds, publish, write).value;
      var s' := Store(UpdateById(s.posts, due[0].id, c), s.nextId);
      var tail := due[1..];
      UniqueTail(due);
      ProcessDueRow(s', tail, creds, publish, write, i);
      var rest := tail[..k - 1];
      assert due[..k] == [due[0]] + rest;
      assert forall q :: q in rest ==> q.id != due[0].id by {
        assert forall q :: q in rest ==> q in tail;
      }
      ProcessedStep(s.posts[i], due[0], c, rest, creds, publish, write);
    }
  }

  /** Dropping the first of posts with distinct ids leaves distinct ids, none of them the first's. */
  lemma UniqueTail(due: seq<InstagramPost>)
    requires UniqueIds(due) && |due| > 0
    ensures UniqueIds(due[1..])
    ensures forall q :: q in due[1..] ==> q.id != due[0].id
  {
    var tail := due[1..];
    forall i, j | 0 <= i < |tail| && 0 <= j < |tail| && i != j ensures tail[i].id != tail[j].id {
      assert tail[i] == due[i + 1] && tail[j] == due[j + 1];
    }
    forall q | q in tail ensures q.id != due[0].id {
      var j :| 0 <= j < |tail| && tail[j] == q;
      assert q == due[j + 1];
    }
  }

  /** One step of the loop seen from one row: updating the row for the first attempted post and then
      processing the others is processing all of them, when no later post shares the first one's id. */
  lemma ProcessedStep(p: InstagramPost, first: InstagramPost, c: Change, rest: seq<InstagramPost>,
                      creds: Credentials, publish: Publisher, write: Writer)
    requires Attempt(first, creds, publish, write) == Success(c)
    requires forall q :: q in rest ==> q.id != first.id
    ensures var p' := if p.id == first.id then Apply(p, c) else p;
      Processed(p', rest, creds, publish, write) == Processed(p, [first] + rest, creds, publish, write)
  {
    var all := [first] + rest;
    assert all[0] == first && all[1..] == rest;
    if p.id == first.id {
      assert FindById(rest, p.id).None?;
    }
  }

  /** The change the sweep makes to one row, judged on that row alone: a due post whose catch block
      does not throw ends as the attempt decided; every other row stays as it was. */
  function Expected(p: InstagramPost, now: Time, creds: Credentials, publish: Publisher, write: Writer): (q: InstagramPost)
  {
    if IsDue(p, now) && Attempt(p, creds, publish, write).Success?
    then Apply(p, Attempt(p, creds, publish, write).value)
    else p
  }

  /** With distinct ids in the table, the selected posts have distinct ids too. */
  lemma {:induction false} DueUniqueIds(posts: seq<InstagramPost>, now: Time)
    requires UniqueIds(posts)
    ensures UniqueIds(DuePending(posts, now))
    decreases |posts|
  {
    if |posts| > 0 {
      var init := posts[..|posts| - 1];
      var last := posts[|posts| - 1];
      assert forall i :: 0 <= i < |init| ==> init[i] == posts[i];
      assert UniqueIds(init);
      DueUniqueIds(init, now);
      var rest := DuePending(init, now);
      DueMembership(init, now);
      forall q | q in rest ensures q.id != last.id {
        var j :| 0 <= j < |init| && init[j] == q;
      }
      if IsDue(last, now) {
        UniqueSnoc(rest, last);
      }
    }
  }

  /** Adding a row whose id no row has keeps ids distinct. */
  lemma UniqueSnoc(rows: seq<InstagramPost>, last: InstagramPost)
    requires UniqueIds(rows)
    requires forall q :: q in rows ==> q.id != last.id
    ensures UniqueIds(rows + [last])
  {
    var all := rows + [last];
    forall i, j | 0 <= i < |all| && 0 <= j < |all| && i != j ensures all[i].id != all[j].id {
      if i < |rows| { assert all[i] in rows; }
      if j < |rows| { assert all[j] in rows; }
    }
  }

  /** With distinct ids, a row sharing its id with a row of the table is that row. */
  lemma SameIdSameRow(posts: seq<InstagramPost>, i: nat, q: InstagramPost)
    requires UniqueIds(posts) && i < |posts|
    requires q in posts && q.id == posts[i].id
    ensures q == posts[i]
  {
    var j :| 0 <= j < |posts| && posts[j] == q;
    assert j == i;
  }

  /** One row after the loop, compared with what `Expected` says about it. */
  lemma RowIsExpected(posts: seq<InstagramPost>, i: nat, now: Time, creds: Credentials, publish: Publisher, write: Writer)
    requires UniqueIds(posts) && i < |posts|
    ensures var due := DuePending(posts, now);
      var k := FirstFailure(due, creds, publish, write);
      var p' := Processed(posts[i], due[..k], creds, publish, write);
      && (p' == posts[i] || p' == Expected(posts[i], now, creds, publish, write))
      && (k == |due| ==> p' == Expected(posts[i], now, creds, publish, write))
  {
    var due := DuePending(posts, now);
    var k := FirstFailure(due, creds, publish, write);
    var p := posts[i];
    DueMembership(posts, now);
    if k == |due| && IsDue(p, now) {
      assert due[..k] == due;
      assert p in due[..k];
    }
    var found := FindById(due[..k], p.id);
    if found.Some? {
      var q := found.value;
      assert q in due;
      SameIdSameRow(posts, i, q);
      var j :| 0 <= j < k && due[..k][j] == q;
      BeforeFirstFailure(due, creds, publish, write);
      assert Attempt(due[j], creds, publish, write).Success?;
    }
  }

  /** Every row after the sweep is either untouched or changed exactly as `Expected` says;
      when the sweep completes, every row is as `Expected` says. */
  lemma SweepRowsAreExpected(s: Store, readFaults: ReadFaults, auth: Option<InstagramAuth>, now: Time, publish: Publisher, write: Writer)
    requires UniqueIds(s.posts)
    ensures var r := ProcessScheduledPosts(s, readFaults, auth, now, publish, write);
      forall i :: 0 <= i < |s.posts| ==>
        r.store.posts[i] == s.posts[i] ||
        r.store.posts[i] == Expected(s.posts[i], now, GetCredentials(auth, now).value, publish, write)
    ensures var r := ProcessScheduledPosts(s, readFaults, auth, now, publish, write);
      r.outcome == Completed ==>
        forall i :: 0 <= i < |s.posts| ==>
          r.store.posts[i] == Expected(s.posts[i], now, GetCredentials(auth, now).value, publish, write)
  {
    forall i | 0 <= i < |s.posts| {
      SweepRow(s, readFaults, auth, now, publish, write, i);
    }
  }

  /** `SweepRowsAreExpected` for the single row `i`. */
  lemma SweepRow(s: Store, readFaults: ReadFaults, auth: Option<InstagramAuth>, now: Time, publish: Publisher, write: Writer, i: nat)
    requires UniqueIds(s.posts) && i < |s.posts|
    ensures var r := ProcessScheduledPosts(s, readFaults, auth, now, publish, write);
      && (r.store.posts[i] == s.posts[i] ||
          r.store.posts[i] == Expected(s.posts[i], now, GetCredentials(auth, now).value, publish, write))
      && (r.outcome == Completed ==>
          r.store.posts[i] == Expected(s.posts[i], now, GetCredentials(auth, now).value, publish, write))
  {
    if ReadsSucceed(readFaults) && GetCredentials(auth, now).Some? {
      var creds := GetCredentials(auth, now).value;
      var due := DuePending(s.posts, now);
      DueUniqueIds(s.posts, now);
      ProcessDueRow(s, due, creds, publish, write, i);
      OutcomeFollowsFirstFailure(s, due, creds, publish, write);
      RowIsExpected(s.posts, i, now, creds, publish, write);
    }
  }

  /** The sweep completes exactly when both reads succeed, credentials are valid and no due post's
      FAILED write throws. */
  lemma SweepCompletesIff(s: Store, readFaults: ReadFaults, auth: Option<InstagramAuth>, now: Time, publish: Publisher, write: Writer)
    ensures var r := ProcessScheduledPosts(s, readFaults, auth, now, publish, write);
      r.outcome == Completed <==>
        ReadsSucceed(readFaults) && GetCredentials(auth, now).Some? &&
        forall i :: 0 <= i < |s.posts| && IsDue(s.posts[i], now) ==>
          Attempt(s.posts[i], GetCredentials(auth, now).value, publish, write).Success?
  {
    var r := ProcessScheduledPosts(s, readFaults, auth, now, publish, write);
    if ReadsSucceed(readFaults) && GetCredentials(auth, now).Some? {
      var creds := GetCredentials(auth, now).value;
      var due := DuePending(s.posts, now);
      var k := FirstFailure(due, creds, publish, write);
      OutcomeFollowsFirstFailure(s, due, creds, publish, write);
      DueMembership(s.posts, now);
      if k < |due| {
        assert due[k] in due;
        var i :| 0 <= i < |s.posts| && s.posts[i] == due[k];
      } else {
        BeforeFirstFailure(due, creds, publish, write);
        forall i | 0 <= i < |s.posts| && IsDue(s.posts[i], now)
          ensures Attempt(s.posts[i], creds, publish, write).Success?
        {
          assert s.posts[i] in due;
          var j :| 0 <= j < |due| && due[j] == s.posts[i];
        }
      }
    }
  }

  /** The loop's outcome is decided by the first due post whose catch block throws. */
  lemma {:induction false} OutcomeFollowsFirstFailure(s: Store, due: seq<InstagramPost>, creds: Credentials, publish: Publisher, write: Writer)
    ensures var k := FirstFailure(due, creds, publish, write);
      ProcessDue(s, due, creds, publish, write).outcome ==
        (if k == |due| then Completed else Aborted(Attempt(due[k], creds, publish, write).error))
    decreases |due|
  {
    if |due| > 0 && Attempt(due[0], creds, publish, write).Success? {
      var c := Attempt(due[0], creds, publish, write).value;
      OutcomeFollowsFirstFailure(Store(UpdateById(s.posts, due[0].id, c), s.nextId), due[1..], creds, publish, write);
    }
  }

  /** Rows that are not due, in particular POSTED and FAILED ones and those scheduled later than `now`,
      come out of the sweep exactly as they went in, whatever its outcome; and no row loses its
      id, media URL, caption or schedule. */
  lemma SweepFrame(s: Store, readFaults: ReadFaults, auth: Option<InstagramAuth>, now: Time, publish: Publisher, write: Writer)
    requires UniqueIds(s.posts)
    ensures var r := ProcessScheduledPosts(s, readFaults, auth, now, publish, write);
      forall i :: 0 <= i < |s.posts| && !IsDue(s.posts[i], now) ==> r.store.posts[i] == s.posts[i]
    ensures var r := ProcessScheduledPosts(s, readFaults, auth, now, publish, write);
      forall i :: 0 <= i < |s.posts| ==>
        && r.store.posts[i].id == s.posts[i].id
        && r.store.posts[i].mediaUrl == s.posts[i].mediaUrl
        && r.store.posts[i].caption == s.posts[i].caption
        && r.store.posts[i].scheduleFor == s.posts[i].scheduleFor
  {
    SweepRowsAreExpected(s, readFaults, auth, now, publish, write);
  }

  /** A sweep that completes leaves no due post behind, so a second sweep at the same `now`
      changes nothing, whatever the publisher and the store do this time, and completes unless
      one of its reads throws. */
  lemma SweepIdempotent(s: Store, readFaults: ReadFaults, auth: Option<InstagramAuth>, now: Time,
                        publish: Publisher, write: Writer, readFaults2: ReadFaults, publish2: Publisher, write2: Writer)
    requires UniqueIds(s.posts)
    requires ProcessScheduledPosts(s, readFaults, auth, now, publish, write).outcome == Completed
    ensures var r := ProcessScheduledPosts(s, readFaults, auth, now, publish, write);
      && DuePending(r.store.posts, now) == []
      && ProcessScheduledPosts(r.store, readFaults2, auth, now, publish2, write2).store == r.store
      && (ReadsSucceed(readFaults2) ==>
          ProcessScheduledPosts(r.store, readFaults2, auth, now, publish2, write2) == SweepResult(r.store, Completed))
  {
    var r := ProcessScheduledPosts(s, readFaults, auth, now, publish, write);
    SweepRowsAreExpected(s, readFaults, auth, now, publish, write);
    SweepCompletesIff(s, readFaults, auth, now, publish, write);
    forall q | q in r.store.posts ensures !IsDue(q, now) {
      var i :| 0 <= i < |r.store.posts| && r.store.posts[i] == q;
    }
    NothingDueMeansEmpty(r.store.posts, now);
  }

  lemma NothingDueMeansEmpty(posts: seq<InstagramPost>, now: Time)
    requires forall q :: q in posts ==> !IsDue(q, now)
    ensures DuePending(posts, now) == []
  {
    var due := DuePending(posts, now);
    DueMembership(posts, now);
    assert forall j :: 0 <= j < |due| ==> due[j] in posts;
  }

  /** Isolation: what becomes of a due post in a completed sweep depends only on the publisher's
      answer for that post and the store's answers for that post's id, never on the other posts. */
  lemma SweepIsolation(s: Store, readFaults: ReadFaults, auth: Option<InstagramAuth>, now: Time,
                       publish1: Publisher, write1: Writer, publish2: Publisher, write2: Writer, i: nat)
    requires UniqueIds(s.posts) && i < |s.posts|
    requires GetCredentials(auth, now).Some?
    requires var c := GetCredentials(auth, now).value; var p := s.posts[i];
      && publish1(c, p.mediaUrl, p.caption) == publish2(c, p.mediaUrl, p.caption)
      && write1(p.id, Posted) == write2(p.id, Posted)
      && write1(p.id, Failed) == write2(p.id, Failed)
    requires ProcessScheduledPosts(s, readFaults, auth, now, publish1, write1).outcome == Completed
    requires ProcessScheduledPosts(s, readFaults, auth, now, publish2, write2).outcome == Completed
    ensures ProcessScheduledPosts(s, readFaults, auth, now, publish1, write1).store.posts[i] ==
            ProcessScheduledPosts(s, readFaults, auth, now, publish2, write2).store.posts[i]
  {
    SweepRowsAreExpected(s, readFaults, auth, now, publish1, write1);
    SweepRowsAreExpected(s, readFaults, auth, now, publish2, write2);
  }

  /** With both reads succeeding, valid credentials and writes that never throw, the sweep completes and every
      due post ends POSTED if its publish succeeded, and otherwise FAILED carrying what the publish
      threw; one post's failure leaves the others' outcome alone. */
  lemma SweepWithReliableStore(s: Store, readFaults: ReadFaults, auth: Option<InstagramAuth>, now: Time, publish: Publisher, write: Writer)
    requires UniqueIds(s.posts)
    requires ReadsSucceed(readFaults) && GetCredentials(auth, now).Some?
    requires forall id: nat, st: Status :: write(id, st).None?
    ensures var r := ProcessScheduledPosts(s, readFaults, auth, now, publish, write);
      var c := GetCredentials(auth, now).value;
      && r.outcome == Completed
      && forall i :: 0 <= i < |s.posts| && IsDue(s.posts[i], now) ==>
        var p := s.posts[i];
        var answer := publish(c, p.mediaUrl, p.caption);
        if answer.Published? then r.store.posts[i] == p.(status := Posted)
        else r.store.posts[i] == p.(status := Failed, error := Some(ErrorText(answer.fault)))
  {
    SweepCompletesIff(s, readFaults, auth, now, publish, write);
    SweepRowsAreExpected(s, readFaults, auth, now, publish, write);
  }

  /** A sweep that stops early was stopped by a due post whose FAILED write threw; that post is left
      PENDING for the next sweep. */
  lemma SweepAbortLeavesCulpritPending(s: Store, readFaults: ReadFaults, auth: Option<InstagramAuth>, now: Time, publish: Publisher, write: Writer)
    requires UniqueIds(s.posts)
    requires ProcessScheduledPosts(s, readFaults, auth, now, publish, write).outcome.Aborted?
    ensures var r := ProcessScheduledPosts(s, readFaults, auth, now, publish, write);
      exists i :: 0 <= i < |s.posts| && IsDue(s.posts[i], now) &&
        Attempt(s.posts[i], GetCredentials(auth, now).value, publish, write) == Failure(r.outcome.fault) &&
        r.store.posts[i] == s.posts[i]
  {
    var r := ProcessScheduledPosts(s, readFaults, auth, now, publish, write);
    var creds := GetCredentials(auth, now).value;
    var due := DuePending(s.posts, now);
    var k := FirstFailure(due, creds, publish, write);
    OutcomeFollowsFirstFailure(s, due, creds, publish, write);
    assert k < |due|;
    DueMembership(s.posts, now);
    assert due[k] in s.posts;
    var i :| 0 <= i < |s.posts| && s.posts[i] == due[k];
    SweepRowsAreExpected(s, readFaults, auth, now, publish, write);
    assert r.store.posts[i] == s.posts[i];
  }

  /** The table invariant survives a sweep: ids are untouched, POSTED rows carry no error,
      FAILED rows carry one. */
  lemma SweepPreservesValid(s: Store, readFaults: ReadFaults, auth: Option<InstagramAuth>, now: Time, publish: Publisher, write: Writer)
    requires Valid(s)
    ensures Valid(ProcessScheduledPosts(s, readFaults, auth, now, publish, write).store)
  {
    var r := ProcessScheduledPosts(s, readFaults, auth, now, publish, write);
    SweepRowsAreExpected(s, readFaults, auth, now, publish, write);
    SweepFrame(s, readFaults, auth, now, publish, write);
    forall i | 0 <= i < |s.posts| ensures ErrorIffFailed(r.store.posts[i]) {
      assert ErrorIffFailed(s.posts[i]);
    }
  }
}

=== FILE: text.dfy ===
/** The two JavaScript string primitives the post forms rely on:
    `String.prototype.split` with a one-character separator, and `parseInt` in base 10. */
module Text {
  import opened Wrappers

  /** `s.split(sep)`: the pieces between occurrences of `sep`; the empty string splits to `[""]`. */
  function Split(s: string, sep: char): (parts: seq<string>)
    ensures |parts| >= 1
    ensures forall i :: 0 <= i < |parts| ==> sep !in parts[i]
    decreases |s|
  {
    if |s| == 0 then [""]
    else
      var rest := Split(s[1..], sep);
      if s[0] == sep then [""] + rest
      else [[s[0]] + rest[0]] + rest[1..]
  }

  /** The inverse of `Split`: the pieces glued back together with `sep` between neighbours. */
  function Join(parts: seq<string>, sep: char): (s: string)
    decreases |parts|
  {
    if |parts| == 0 then ""
    else if |parts| == 1 then parts[0]
    else parts[0] + [sep] + Join(parts[1..], sep)
  }

  /** Gluing the pieces back together with `sep` gives the original text: nothing is lost. */
  lemma {:induction false} JoinSplit(s: string, sep: char)
    ensures Join(Split(s, sep), sep) == s
    decreases |s|
  {
    if |s| > 0 {
      var rest := Split(s[1..], sep);
      JoinSplit(s[1..], sep);
      if s[0] == sep {
        assert Split(s, sep) == [""] + rest;
        assert s == [sep] + s[1..];
      } else {
        var parts := Split(s, sep);
        assert parts[0] == [s[0]] + rest[0];
        assert parts[1..] == rest[1..];
        JoinFirstChar(parts, sep);
        assert [parts[0][1..]] + parts[1..] == rest;
        assert s == [s[0]] + s[1..];
      }
    }
  }

  /** Splitting what `Join` glued back together gives the pieces again, provided no piece contains the separator. */
  lemma {:induction false} SplitJoin(parts: seq<string>, sep: char)
    requires |parts| >= 1
    requires forall i :: 0 <= i < |parts| ==> sep !in parts[i]
    ensures Split(Join(parts, sep), sep) == parts
    decreases |parts|, |parts[0]|
  {
    if |parts[0]| == 0 {
      if |parts| > 1 {
        var tail := parts[1..];
        SplitJoin(tail, sep);
        SplitAfterSeparator(Join(tail, sep), sep);
        assert Join(parts, sep) == [sep] + Join(tail, sep);
        assert parts == [""] + tail;
      }
    } else {
      var c := parts[0][0];
      var shorter := [parts[0][1..]] + parts[1..];
      assert forall i :: 1 <= i < |shorter| ==> shorter[i] == parts[i];
      SplitJoin(shorter, sep);
      JoinFirstChar(parts, sep);
      SplitAfterChar(c, Join(shorter, sep), sep);
      assert [c] + shorter[0] == parts[0];
      assert shorter[1..] == parts[1..];
      assert parts == [parts[0]] + parts[1..];
    }
  }

  /** Peeling the first character off the first piece peels it off the joined text. */
  lemma JoinFirstChar(parts: seq<string>, sep: char)
    requires |parts| >= 1 && |parts[0]| > 0
    ensures Join(parts, sep) == [parts[0][0]] + Join([parts[0][1..]] + parts[1..], sep)
  {
    var shorter := [parts[0][1..]] + parts[1..];
    assert parts[0] == [parts[0][0]] + parts[0][1..];
    if |parts| > 1 {
      assert shorter[1..] == parts[1..];
    }
  }

  /** A leading separator splits off an empty first piece. */
  lemma SplitAfterSeparator(x: string, sep: char)
    ensures Split([sep] + x, sep) == [""] + Split(x, sep)
  {
    assert ([sep] + x)[1..] == x;
  }

  /** A leading non-separator character joins the first piece. */
  lemma SplitAfterChar(c: char, x: string, sep: char)
    requires c != sep
    ensures Split([c] + x, sep) == [[c] + Split(x, sep)[0]] + Split(x, sep)[1..]
  {
    assert ([c] + x)[1..] == x;
  }

  /** The text before the first `sep`, as `s.split(sep)[0]`. */
  function Before(s: string, sep: char): (b: string)
    ensures |b| <= |s| && b == s[..|b|]
    ensures sep !in b
    ensures |b| < |s| ==> s[|b|] == sep
  {
    var parts := Split(s, sep);
    FirstPieceIsPrefix(s, sep);
    parts[0]
  }

  lemma {:induction false} FirstPieceIsPrefix(s: string, sep: char)
    ensures |Split(s, sep)[0]| <= |s|
    ensures Split(s, sep)[0] == s[..|Split(s, sep)[0]|]
    ensures |Split(s, sep)[0]| < |s| ==> s[|Split(s, sep)[0]|] == sep
    decreases |s|
  {
    if |s| > 0 && s[0] != sep {
      FirstPieceIsPrefix(s[1..], sep);
    }
  }

  /** The text before the first `sep` of `head + [sep] + tail` is `head`, when `head` has no `sep`. */
  lemma BeforeSeparator(head: string, sep: char, tail: string)
    requires sep !in head
    ensures Before(head + [sep] + tail, sep) == head
  {
    var s := head + [sep] + tail;
    var b := Before(s, sep);
    assert forall i :: 0 <= i < |head| ==> s[i] == head[i] != sep;
    assert s[|head|] == sep;
    assert forall i :: 0 <= i < |b| ==> s[i] == b[i] != sep;
    assert |b| == |head|;
    assert b == s[..|head|] == head;
  }

  /** Splitting three separator-free pieces glued with `sep` gives the three pieces back. */
  lemma {:induction false} SplitThree(a: string, b: string, c: string, sep: char)
    requires sep !in a && sep !in b && sep !in c
    ensures Split(a + [sep] + b + [sep] + c, sep) == [a, b, c]
  {
    var parts := [a, b, c];
    assert Join(parts[2..], sep) == c;
    assert Join(parts[1..], sep) == b + [sep] + c;
    assert Join(parts, sep) == a + [sep] + (b + [sep] + c);
    assert a + [sep] + b + [sep] + c == a + [sep] + (b + [sep] + c);
    SplitJoin(parts, sep);
  }

  /** Splitting two separator-free pieces glued with `sep` gives the two pieces back. */
  lemma {:induction false} SplitTwo(a: string, b: string, sep: char)
    requires sep !in a && sep !in b
    ensures Split(a + [sep] + b, sep) == [a, b]
  {
    var parts := [a, b];
    assert Join(parts[1..], sep) == b;
    SplitJoin(parts, sep);
  }

  /** A non-empty run of decimal digits, as a user writes a number. */
  predicate Numeral(s: string)
  {
    |s| > 0 && forall i :: 0 <= i < |s| ==> IsDigit(s[i])
  }

  /** A numeral contains no character other than a digit, in particular no separator. */
  lemma NumeralExcludes(s: string, c: char)
    requires Numeral(s) && !IsDigit(c)
    ensures c !in s
  {
  }

  /** The `k`-th element of a destructuring pattern: `undefined` (here `None`) past the end. */
  function PieceAt(parts: seq<string>, k: nat): (r: Option<string>)
    ensures r.Some? <==> k < |parts|
    ensures r.Some? ==> r.value == parts[k]
  {
    if k < |parts| then Some(parts[k]) else None
  }

  predicate IsDigit(c: char) { '0' <= c <= '9' }

  function DigitValue(c: char): (d: nat)
    requires IsDigit(c)
  {
    (c as int - '0' as int) as nat
  }

  /** Length of the run of decimal digits at the start of `s`. */
  function DigitRun(s: string): (n: nat)
    ensures n <= |s|
    ensures forall i :: 0 <= i < n ==> IsDigit(s[i])
    ensures n < |s| ==> !IsDigit(s[n])
    decreases |s|
  {
    if |s| > 0 && IsDigit(s[0]) then 1 + DigitRun(s[1..]) else 0
  }

  /** The decimal number written by a string of digits, most significant first. */
  function DigitsValue(ds: string): (n: nat)
    requires forall i :: 0 <= i < |ds| ==> IsDigit(ds[i])
    decreases |ds|
  {
    if |ds| == 0 then 0
    else 10 * DigitsValue(ds[..|ds| - 1]) + DigitValue(ds[|ds| - 1])
  }

  /** JavaScript's `Number.MAX_SAFE_INTEGER`, 2^53 - 1: up to here a double holds every integer exactly. */
  const MaxSafeInteger: nat := 0x1F_FFFF_FFFF_FFFF

  /** `parseInt(s, 10)`: an optional sign followed by the leading decimal digits; `None` stands for `NaN`,
      which is what JavaScript returns when no digit follows the sign. The value is the exact integer,
      which is what JavaScript returns as long as its magnitude is at most `MaxSafeInteger`. */
  function ParseInt(s: string): (r: Option<int>)
    ensures r.None? <==> DigitRun(Unsigned(s)) == 0
    ensures r.Some? && |s| > 0 && s[0] == '-' ==> r.value <= 0
    ensures r.Some? && !(|s| > 0 && s[0] == '-') ==> r.value >= 0
  {
    var body := Unsigned(s);
    var n := DigitRun(body);
    if n == 0 then None
    else
      var v: int := DigitsValue(body[..n]);
      if |s| > 0 && s[0] == '-' then Some(-v) else Some(v)
  }

  /** `s` without one leading `+` or `-`. */
  function Unsigned(s: string): (body: string)
  {
    if |s| > 0 && (s[0] == '-' || s[0] == '+') then s[1..] else s
  }

  /** The decimal rendering of a natural number, without leading zeros. */
  function Decimal(n: nat): (ds: string)
    ensures |ds| >= 1
    decreases n
  {
    var d := ['0' + ((n % 10) as char)];
    if n < 10 then d else Decimal(n / 10) + d
  }

  /** Every character of a decimal rendering is a digit. */
  lemma {:induction false} DecimalDigits(n: nat)
    ensures forall i :: 0 <= i < |Decimal(n)| ==> IsDigit(Decimal(n)[i])
    decreases n
  {
    if n >= 10 {
      DecimalDigits(n / 10);
      var ds := Decimal(n);
      assert forall i :: 0 <= i < |ds| - 1 ==> ds[i] == Decimal(n / 10)[i];
    }
  }

  /** The digits `Decimal` writes denote the number it was given. */
  lemma {:induction false} DecimalValue(n: nat)
    ensures (DecimalDigits(n); DigitsValue(Decimal(n)) == n)
    decreases n
  {
    DecimalDigits(n);
    var ds := Decimal(n);
    assert ds[..|ds| - 1] == (if n < 10 then "" else Decimal(n / 10));
    if n >= 10 {
      DecimalValue(n / 10);
    }
  }

  /** `parseInt` reads the number a numeral denotes, whatever non-digit text follows it. */
  lemma {:induction false} ParseIntNumeral(ds: string, rest: string)
    requires Numeral(ds)
    requires DigitsValue(ds) <= MaxSafeInteger
    requires |rest| == 0 || !IsDigit(rest[0])
    ensures ParseInt(ds + rest) == Some(DigitsValue(ds))
  {
    DigitRunOfDigits(ds, rest);
    assert (ds + rest)[..|ds|] == ds;
    assert Unsigned(ds + rest) == ds + rest;
  }

  /** A minus sign in front of a digit negates what `parseInt` reads. */
  lemma {:induction false} ParseIntMinus(x: string)
    requires |x| > 0 && IsDigit(x[0])
    ensures ParseInt(x).Some? && ParseInt("-" + x) == Some(-ParseInt(x).value)
  {
    assert ("-" + x)[1..] == x;
  }

  /** `parseInt` reads back the number `Decimal` writes, whatever non-digit text follows it. */
  lemma {:induction false} ParseIntDecimal(n: nat, rest: string)
    requires n <= MaxSafeInteger
    requires |rest| == 0 || !IsDigit(rest[0])
    ensures ParseInt(Decimal(n) + rest) == Some(n)
  {
    DecimalDigits(n);
    DecimalValue(n);
    ParseIntNumeral(Decimal(n), rest);
  }

  lemma {:induction false} DigitRunOfDigits(ds: string, rest: string)
    requires forall i :: 0 <= i < |ds| ==> IsDigit(ds[i])
    requires |rest| == 0 || !IsDigit(rest[0])
    ensures DigitRun(ds + rest) == |ds|
    decreases |ds|
  {
    if |ds| > 0 {
      assert (ds + rest)[1..] == ds[1..] + rest;
      DigitRunOfDigits(ds[1..], rest);
    }
  }
}

=== FILE: wrappers.dfy ===
/** Optional values and success/failure results shared by every module of the model. */
module Wrappers {

  /** A value that may be absent: a missing record, `null`, or `undefined`. */
  datatype Option<+T> = None | Some(value: T)

  /** The outcome of an operation that may throw: `Failure` carries what was thrown. */
  datatype Result<+R, +E> = Success(value: R) | Failure(error: E)
}
